=== FILE: README.md ===
# gist — a Dafny model of the command-line client's core

`gist` is a command-line client for GitHub gists. This project models, in
Dafny, the parts of it that decide what happens before and after the network
is involved:

- **Configuration** (`config.dfy`, module `Config`). The module covers:
  - where the configuration file is found, using a last-wins chain over `~/.gist`, `~/.config/gist`, `$XDG_DATA_HOME/gist` and `$GIST_CONFIG`;
  - how the file is loaded, with a `gist` section guaranteed to exist;
  - how the personal access token is validated, including the `!command` form;
  - how the editor is chosen, using a last-wins chain over `/usr/bin/editor`, `$EDITOR` and the `editor` option.
- **Client commands** (`client.dfy`, module `Client`). The module covers:
  - the lines `list` prints;
  - what `content` prints, for one file or for all of them, with or without decryption;
  - the validation and payload of `create`;
  - how `main` turns the outcome into an exit status and a message on standard error.
- **Elision** (`elide.dfy`, module `Elide`). This holds both versions of `elide`: the client's guarded one and the library module's unguarded one.
- **The library module's request side** (`gist_api.dfy`, module `GistApi`). The module covers:
  - the `authenticate` decorator, as a value that `__get__` binds and every `__call__` unbinds, even when the call raises;
  - `send`, which joins a stem onto the URL with `os.path.join`;
  - the JSON body of `create`;
  - the `DELETE` request;
  - the line-by-line output of `list`, including the `KeyError` that stops it partway.
- **Python semantics** (`py.dfy`, module `Py`). This is what the above relies on:
  - `str.strip()` with Python's full whitespace set;
  - `s[:k]` for a negative `k`;
  - `os.path.join` and `os.path.basename`;
  - `str()` and truthiness of decoded JSON scalars.
- **Shared types** (`types.dfy`, module `Types`). `Option`, `Result`, and one `Exception` constructor per Python exception that can arise.

All operations are pure functions. The filesystem, the environment, the file
reader, the shell runner, GnuPG and the terminal width are parameters, so the
model does not depend on them. Python's exceptions are `Err` values of
`Result`. A Python `print` is modelled as the text the operation returns.

Where the two source files disagree, each is modelled as written:

- The client prints a `None` description as the empty string, while the library module prints "None".
- The client elides only for widths above 3, while the library module elides for any width.
- The client constructs `GistAPI(token=..., editor=...)` and iterates the result of `gapi.list()`. The library module's `GistAPI.__init__` takes no `editor` argument, and its `list` prints lines and returns `None`.

The two halves are therefore not composed. `Client` takes the API's results
as inputs.

## Model

| member | source | states |
|---|---|---|
| `Py.Strip` | gist/client.py:277 | `str.strip()`: the result has no whitespace at either end, and it is empty exactly when the input is all whitespace |
| `Py.Prefix` | gist/gist.py:45 | `txt[:k]` is a prefix of `txt`; a negative `k` drops `-k` characters from the end, and the bounds are clamped |
| `Py.Basename` | gist/client.py:596 | `os.path.basename` contains no `/` and is no longer than the path |
| `Py.PathJoin` | gist/gist.py:117 | `os.path.join`; no contract of its own: `PathJoinJoins` states what it builds |
| `Py.PathJoinJoins` | gist/gist.py:117 | the joined path ends with the second part; an absolute second part is the whole result; otherwise it starts with the first part, and a non-empty first part is followed by `/` |
| `Py.Str` | gist/gist.py:126 | `str()` of a decoded scalar; no contract of its own: `IntegerIdLineRoundTrip` states that integer ids contain no space and `NullDescriptionPrintsNone` states how `None` renders |
| `Py.Truthy` | gist/gist.py:125 | Python truthiness of a decoded scalar; no contract of its own: `ListMarker` states that it decides the `+`/`-` marker |
| `Py.AsciiLower` | gist/client.py:607 | every ASCII capital is replaced by its lower-case letter and every other character is kept, so the length is kept |
| `Py.BasenameIsLastComponent` | gist/client.py:596 | the base name is the end of the path, and it is either the whole path or it follows a `/` |
| `Elide.ClientElide` | gist/client.py:225-243 | for a known width above 3 that the text exceeds, the result is exactly `width` long: the text's first `width - 3` characters then "..."; otherwise the text is unchanged |
| `Elide.ClientElideFits` | gist/client.py:231-232 | the documented promise holds: for widths above 3, the result is no longer than the width and no longer than the text |
| `Elide.ClientElideIdempotent` | gist/client.py:235-243 | eliding an elided line to the same width changes nothing |
| `Elide.ClientElideSmallWidthUnbounded` | gist/client.py:236 | for widths of 3 or less, the guard returns a longer text unchanged, which is longer than the width |
| `Elide.LegacyElide` | gist/gist.py:36-48 | the library version ends an elided line in "..."; with no terminal (the comparison raises and the exception is swallowed) or a short text, it returns the text; below width 3 the kept prefix is `len(txt) + width - 3` long (or empty), because `txt[:width - 3]` counts from the end |
| `Elide.LegacyElideExact` | gist/gist.py:44-45 | from width 3 upwards, the library version elides to exactly the width |
| `Elide.LegacyElideOverflows` | gist/gist.py:43-48 | below width 3, the library version returns something longer than the width |
| `Elide.LegacyElideWidthOneExample` | gist/gist.py:45 | width 1 turns "abcd" into "ab...", because `"abcd"[:-2]` counts from the end |
| `Elide.ElideVersionsAgree` | gist/gist.py:36-48 | where the client's guard allows elision, both versions give the same result |
| `Config.Get` | gist/client.py:323-325 | `ConfigParser.get` returns the value, and raises `NoSectionError` for a missing section and `NoOptionError` for a missing option |
| `Config.HasOption` | gist/client.py:606 | `ConfigParser.has_option`, false for a missing section; no contract of its own: `Get` states that a value is found exactly when it holds |
| `Config.GetBoolean` | gist/client.py:606-607 | `getboolean` is true or false exactly for the accepted words, case-insensitively; anything else is an error |
| `Config.GetValueFromCommand` | gist/client.py:246-266 | a blank value fails on `command[0]`; a non-`!` value is returned unstripped; a `!` value runs the stripped value without its `!`, yields that command's stripped standard output, and fails exactly when the command exits nonzero, with a `GistError` holding its standard error |
| `Config.GetPersonalAccessToken` | gist/client.py:269-284 | a missing section is not caught; a missing option gives `GistMissingTokenError`; a blank token gives `GistEmptyTokenError`; a literal token is returned stripped; any non-blank token is stripped and handed to `get_value_from_command`; every token returned is stripped |
| `Config.LiteralTokenIsStable` | gist/client.py:276-284 | storing the validated literal token back and validating again gives the same token |
| `Config.MissingTokenExample` | tests/test_config.py:25-27 | a `gist` section without `token` raises `GistMissingTokenError` |
| `Config.EmptyTokenExamples` | tests/test_config.py:30-34 | tokens "" and "   " raise `GistEmptyTokenError` |
| `Config.PaddedTokenExample` | tests/test_config.py:37-40 | the token "   123   " is accepted as "123" |
| `Config.CommandValueIsStrippedOutput` | tests/test_config.py:20-21 | whitespace before the `!` is ignored, the rest of the value is run as the command, and the command's output comes back without its surrounding whitespace |
| `Config.PlainValueExample` | tests/test_config.py:22 | "magic token" is returned as it is |
| `Config.LastPresent` | gist/client.py:392-395 | a chain of "this if present, else the default" steps yields the last present candidate, or the default when none is present |
| `Config.ResolveEditor` | gist/client.py:901-908 | the configured editor always wins; a missing `gist` section propagates; with a section, `UserError` occurs exactly when no candidate is usable |
| `Config.AlternativeEditor` | gist/client.py:287-297 | `/usr/bin/editor` when it exists, else the default; no contract of its own: `EditorIsLastCandidate` states the chain it starts |
| `Config.EnvironmentEditor` | gist/client.py:300-312 | the stripped `EDITOR` unless blank, else the default; no contract of its own: `EditorIsLastCandidate` states its place in the chain |
| `Config.ConfigurationEditor` | gist/client.py:315-325 | the `editor` option as written, the default for a missing option, and a missing section propagates; no contract of its own: `ResolveEditor` and `EditorIsLastCandidate` state its effect |
| `Config.EditorIsLastCandidate` | gist/client.py:287-325 | the chosen editor is the last usable one of `/usr/bin/editor`, a non-blank `$EDITOR` and the `editor` option |
| `Config.ConfigPathIsLastExisting` | gist/client.py:328-395 | the configuration path is the last of the four locations that is a regular file (a location counts only if its variable is set); there is no path exactly when none is a regular file |
| `Config.HomedirConfig` | gist/client.py:328-336 | `~/.gist` when it is a regular file, else the default; no contract of its own: `ConfigPathIsLastExisting` states the chain |
| `Config.AlternativeConfig` | gist/client.py:339-347 | `~/.config/gist` when it is a regular file, else the default; no contract of its own: `ConfigPathIsLastExisting` states the chain |
| `Config.XdgDataConfig` | gist/client.py:350-365 | `$XDG_DATA_HOME/gist` when the variable is set and that is a regular file, else the default; no contract of its own: `ConfigPathIsLastExisting` states the chain |
| `Config.EnvironmentConfig` | gist/client.py:368-382 | `$GIST_CONFIG` when the variable is set and that is a regular file, else the default; no contract of its own: `ConfigPathIsLastExisting` states the chain |
| `Config.ConfigPath` | gist/client.py:392-395 | the four lookups in order, each overriding the previous; no contract of its own: `ConfigPathIsLastExisting` states that it is the last existing location |
| `Config.LoadConfigFile` | gist/client.py:385-412 | no file gives `UserError("unable to find config file")`; a read failure gives the "Unable to load configuration file: " error; a file that parses always loads; a loaded configuration has a `gist` section and keeps every parsed section |
| `Client.HandleList` | gist/client.py:415-432 | one line per gist, in order, each being the client-elided `id marker description` |
| `Client.ListLine` | gist/client.py:424-426 | `"{} {} {}".format(id, marker, desc)`; no contract of its own: `ListLineRoundTrip` reads it back and `NullDescriptionPrintsEmpty` states the `None` case |
| `Client.NullDescriptionPrintsEmpty` | gist/client.py:424-426 | a gist without a description gives the line `id marker ` with nothing after the last space |
| `Client.ListLineRoundTrip` | gist/client.py:426-428 | when the id contains no space, a list line reads back as its id, visibility and description (`None` reads back as "") |
| `Client.IntegerIdLineRoundTrip` | gist/client.py:428 | lines for integer ids always read back |
| `Client.ListExample` | tests/test_gist.py:213-235 | the two sample gists print as "1 + test-desc-A" and "2 - test-desc-ℬ" |
| `Client.Lookup` | gist/client.py:543 | `dict.get` finds a value exactly when the name is a key, and the value belongs to that key; it is the first entry with that name, so with distinct names, as a dictionary has, it is the only one |
| `Client.ListingHasEveryFile` | gist/client.py:564-565 | every file is printed as its own block, between the blocks of the files before and after it |
| `Client.HandleContent` | gist/client.py:530-565 | decryption without `gnupg-homedir` is a `GistError`; a selected file prints alone, decrypted when asked; without a selected file, the output is exactly every file's block in dictionary order: `name:\ntext\n\n`, or `name (decrypted):\n` and the text decrypted with `gnupg-homedir` when decrypting |
| `Client.ContentDecryptsEveryFile` | gist/client.py:545-558 | with decryption and no selected file, each file's `name (decrypted):\n` block with its decrypted text appears in the output |
| `Client.ContentMissingNameFallsBack` | gist/client.py:543-565 | naming a file that is not in the gist prints the same as naming none |
| `Client.ContentShowsEveryFile` | gist/client.py:563-565 | the undecrypted all-files output contains each file's `name:\ntext\n\n` |
| `Client.ContentExample` | tests/test_gist.py:238-266 | the two sample files print as their two blocks, in order |
| `Client.ReadFiles` | gist/client.py:593-598 | every path is read under its base name, in order; reading fails exactly when a path is missing, with `FileNotFoundError` for the first missing path |
| `Client.GatherFiles` | gist/client.py:589-626 | on a terminal with file arguments, the files are read as `ReadFiles` reads them; piped input, or editor input on a terminal, becomes one file named `--filename` or "file1.txt"; piped input never fails; editor input fails exactly when `delete-tempfiles` is present and not a boolean, with the `getboolean` error |
| `Client.FirstEmpty` | gist/client.py:628-631 | finds the first file without content, and finds none exactly when all files have content |
| `Client.Payload` | gist/client.py:641-648 | the payload keys are the files' keys; each key holds the value of the last file with that key |
| `Client.HandleCreate` | gist/client.py:568-650 | missing GnuPG settings are reported before input is read; once they are present, an input error is returned as it is, the first empty file is reported by name, and otherwise the call is made; description and visibility pass through; every file has content; plain files are stored under their names and encrypted ones under `name.asc` with their ciphertext |
| `Client.CreateFromFiles` | gist/client.py:628-650 | after the input is read, the call is made exactly when no file is empty; the first empty file is reported by name; the payload keys are the files' keys, each holding the last same-named file's text or ciphertext |
| `Client.PlainPayloadNonEmpty` | gist/client.py:628-648 | without encryption, no payload value is empty |
| `Client.EncryptedKeysFollowNames` | gist/client.py:646 | adding ".asc" keeps distinct file names distinct as keys |
| `Client.CreateRejectsEmptyFile` | gist/client.py:628-631 | any empty file stops `create` with "'name' is empty" for the first such file |
| `Client.CreateDefaultFileName` | gist/client.py:622-626 | without `--filename`, single-file input is sent as "file1.txt", or "file1.txt.asc" when encrypting |
| `Client.Setup` | gist/client.py:891-910 | configuration, then editor, then token, with the first failure returned as it is; when all three succeed the session holds the configuration, the editor and the token; a session's editor and token are those the chains give for its configuration |
| `Client.ExitFor` | gist/client.py:918-928 | the exit status is 0 exactly without an exception; `UserError` is reported with "ERROR: ", gist errors with "GIST: ", and anything else is handed to the logger as `str(e)`; a run without exception reports nothing |
| `Client.Describe` | gist/client.py:927 | `str(e)` for each exception that reaches `main`; no contract of its own: `ExitFor` states that it is what the logger receives and `MissingTokenExit` states a gist error's message |
| `Client.Main` | gist/client.py:883-928 | the exit status is 0 exactly when set-up and the command both succeed |
| `Client.MissingTokenExit` | gist/client.py:910-925 | a missing token ends with "GIST: Missing 'token' field in configuration" and status 1 |
| `Client.MissingEditorExit` | gist/client.py:901-921 | no usable editor ends with "ERROR: Unable to find an editor." and status 1, before the token is looked at |
| `GistApi.Template` | gist/gist.py:97-100 | the request goes to the gists URL, with the decorator's method and headers, and with `access_token` as its only parameter |
| `GistApi.NewAuthenticate` | gist/gist.py:56-65 | a new decorator wraps the given function, carries the three fixed headers and has nothing bound |
| `GistApi.AuthenticateGet` | gist/gist.py:67-69 | `authenticate.get` wraps the given function and uses the method GET |
| `GistApi.AuthenticatePost` | gist/gist.py:71-73 | `authenticate.post` wraps the given function and uses the method POST |
| `GistApi.AuthenticateDelete` | gist/gist.py:75-77 | `authenticate.delete` wraps the given function and uses the method DELETE |
| `GistApi.Bind` | gist/gist.py:79-88 | `__get__` records the instance and the owner and keeps the wrapped function, the method and the headers |
| `GistApi.Call` | gist/gist.py:90-104 | `__call__` always leaves instance and owner unbound and keeps the wrapped function, the method and the headers, whatever the outcome; without an instance it raises `AttributeError` |
| `GistApi.InvokeUsesCallerToken` | gist/gist.py:79-104 | a lookup followed by a call uses the caller's token, whatever was bound before |
| `GistApi.SecondCallWithoutLookupFails` | gist/gist.py:97-104 | calling the same bound method object a second time raises, because the first call unbound it |
| `GistApi.RunCalls` | gist/gist.py:90-104 | after any non-empty sequence of calls, the decorator is unbound and keeps its function, method and headers |
| `GistApi.Send` | gist/gist.py:115-118 | a stem changes only the URL; no stem changes nothing |
| `GistApi.SendRelativeStem` | gist/gist.py:116-117 | a relative stem follows the URL after one `/` and can be read back |
| `GistApi.SendAbsoluteStem` | gist/gist.py:116-117 | a stem starting with `/` replaces the whole URL |
| `GistApi.CreateBody` | gist/gist.py:131-135 | the body has exactly the keys description, public and files |
| `GistApi.CreateBodyRoundTrip` | gist/gist.py:129-135 | reading the body back gives the arguments |
| `GistApi.Create` | gist/gist.py:129-136 | `create` sends the template unchanged except for a body that decodes to its arguments |
| `GistApi.CreateThroughDecorator` | gist/gist.py:129-136 | `GistAPI.create` POSTs to the gists URL with the token and the body, with `public` defaulting to false |
| `GistApi.Delete` | gist/gist.py:138-140 | `delete` keeps the request's method, headers, parameters and body, and a gists URL without a trailing `/` gains `/id` for a relative id |
| `GistApi.DeleteThroughDecorator` | gist/gist.py:138-140 | `GistAPI.delete` sends a DELETE to the gists URL followed by `/id` |
| `GistApi.RecordLine` | gist/gist.py:124-126 | a record's line fails exactly when a key is missing, with `KeyError` for `description`, then `public`, then `id`, in the order the loop reads them |
| `GistApi.PrintUntilError` | gist/gist.py:123-127 | lines are printed in order, each elided, until the first exception, which is raised after the earlier lines were printed |
| `GistApi.ListLines` | gist/gist.py:120-127 | lines are printed in order, each elided, until the first record with a missing key; that record's `KeyError` is raised after the earlier lines were printed |
| `GistApi.ListPrintsAllIffWellFormed` | gist/gist.py:123-127 | every record is printed exactly when every record has the three keys |
| `GistApi.ListMarker` | gist/gist.py:125-126 | the line is the id, a space, the marker, a space and the description; the marker is `+` exactly when `public` is truthy |
| `GistApi.NullDescriptionPrintsNone` | gist/gist.py:124-126 | a `None` description prints as "None" |

## Left out

- HTTP transport. `requests`, the GitHub responses, pagination and base64 decoding are not modelled. The API's results are inputs to `Client`, and `GistApi` operations return the request they would send.
- The URL that `GistAPI.create` prints is not modelled, because it comes from the response.
- GnuPG is an opaque function parameter. No property of encryption is assumed.
- `!command` values: `shlex.split` and process spawning are not modelled. `run` receives the command text after `!`.
- `GistError(err)` receives `bytes` in the source, and the model uses the text of standard error instead.
- Editor invocation (`os.system`) and the temporary file are not modelled. The editor's result is the input text `editorText`. `delete-tempfiles` only matters for the error its parse can raise.
- `terminal_width` (an ioctl) is not modelled. The width is a parameter, and `None` means there is no terminal.
- Logging and the `log-level` option are not modelled. They change only which logger lines reach standard error: debug lines, and whether the catch-all's `logger.error` line is shown. They do not change standard output or the exit status. The model records the message handed to the logger, not whether it is shown.
- Argument parsing (`argparse`, `create_gist_*_parser`) is not modelled. Commands receive their arguments directly.
- These client commands are not modelled: `edit`, `description`, `info`, `fork`, `files`, `delete`, `archive`, `clone`, `version` and `help`. Apart from `version` and `help`, they pass arguments through to the API and do only simple formatting of its answer, such as `json.dumps(info, indent=2)` for `info` and one file name per line for `files`. `version` prints "v" and the package version, and `help` prints the module's usage text; neither calls the API. All of this is outside the modelled core.
- These library operations are not modelled: `clone`, `info`, `files`, `content` and `archive`. Their behaviour is transport, `os.system`, tar output or JSON printing.
- The library module's `__main__` block is not modelled.
- configparser details are not modelled: parsing the INI text, the DEFAULT section, interpolation and option-name lower-casing. A parsed file is a map from section to options.
- `pathlib` normalisation and `~` expansion are not modelled. The home directory is a parameter, and paths are joined with `os.path.join`.
- `wrap_stdout_for_unicode` and the `UnicodeEncodeError` handler of `list` are not modelled. Text has no encoding here.
- Client.ReadFiles: every read failure of a named file is modelled as `FileNotFoundError` for that path. In the source, a directory, a permission error or bytes that are not UTF-8 raise other exceptions (`IsADirectoryError`, `PermissionError`, `UnicodeDecodeError`). Undecodable standard input or editor text is not modelled: both are taken as text.
- Py.AsciiLower: `str.lower()` is modelled for ASCII only. This is enough for the words `getboolean` accepts.
- GistApi.ListLines: the `list` operation is not composed with the decorator, because the response it iterates comes from the transport.

=== FILE: client.dfy ===
/** Output and payload shaping of the command-line client: the `list` lines,
    the `content` selection and formatting, the `create` validation and
    payload, and how `main` maps the outcome to an exit status. Standard
    output is modelled as the text written to it; GnuPG is an opaque
    function passed in. */
module Client {
  import opened Types
  import Py
  import Config
  import Elide

  // ---------------------------------------------------------------------
  // list
  // ---------------------------------------------------------------------

  /** One gist as `handle_gist_list` reads it: `.id`, `.desc`, `.public`. */
  datatype GistInfo = GistInfo(id: Py.Scalar, desc: Option<string>, public: bool)

  /** A description as printed: `None` becomes the empty string. */
  function DescText(desc: Option<string>): string {
    if desc.None? then "" else desc.value
  }

  /** The visibility marker. */
  function Marker(public: bool): char {
    if public then '+' else '-'
  }

  /** `"{} {} {}".format(id, marker, desc)` */
  function ListLine(g: GistInfo): string {
    Py.Str(g.id) + [' ', Marker(g.public), ' '] + DescText(g.desc)
  }

  /** `handle_gist_list`: one line per gist, in order, each elided to the
      terminal width. */
  function HandleList(gists: seq<GistInfo>, width: Option<int>): (lines: seq<string>)
    ensures |lines| == |gists|
    ensures forall i :: 0 <= i < |gists| ==> lines[i] == Elide.ClientElide(ListLine(gists[i]), width)
    ensures width.None? ==> forall i :: 0 <= i < |gists| ==> lines[i] == ListLine(gists[i])
  {
    seq(|gists|, i requires 0 <= i < |gists| => Elide.ClientElide(ListLine(gists[i]), width))
  }

  /** A `list` line read back into its three columns. */
  datatype ListEntry = ListEntry(id: string, public: bool, desc: string)

  /** Unlike the library's `list`, which prints a `None` description as
      "None", the client prints it as nothing. */
  lemma NullDescriptionPrintsEmpty(id: string, public: bool)
    ensures ListLine(GistInfo(Py.SString(id), None, public)) == id + [' ', Marker(public), ' ']
  {
  }

  /** The index of the first occurrence of `c` in `s`, if any. */
  function IndexOf(s: string, c: char): (r: Option<nat>)
    ensures r.None? <==> c !in s
    ensures r.Some? ==> r.value < |s| && s[r.value] == c && c !in s[..r.value]
  {
    if s == [] then None
    else if s[0] == c then Some(0)
    else
      var k := IndexOf(s[1..], c);
      if k.None? then None
      else
        assert s[..k.value + 1] == [s[0]] + s[1..][..k.value];
        Some(k.value + 1)
  }

  /** The first `c` in `a + b` is the first of `b` when `a` has none and `b`
      starts with one. */
  lemma IndexOfAfter(a: string, b: string, c: char)
    requires c !in a && |b| > 0 && b[0] == c
    ensures IndexOf(a + b, c) == Some(|a|)
  {
    var s := a + b;
    assert s[|a|] == c;
    var r := IndexOf(s, c);
    assert r.Some?;
  }

  /** Splits a `list` line at its first space into id, marker and
      description; `None` when the line does not have that shape. */
  function ParseListLine(line: string): Option<ListEntry> {
    match IndexOf(line, ' ')
    case None => None
    case Some(k) =>
      var rest := line[k + 1..];
      if |rest| >= 2 && (rest[0] == '+' || rest[0] == '-') && rest[1] == ' ' then
        Some(ListEntry(line[..k], rest[0] == '+', rest[2..]))
      else None
  }

  /** A line whose first space follows the id and is followed by a marker
      and a space splits into the id, the marker and the rest. */
  lemma ParseAfterId(id: string, tail: string)
    requires ' ' !in id
    requires |tail| >= 3 && tail[0] == ' ' && (tail[1] == '+' || tail[1] == '-') && tail[2] == ' '
    ensures ParseListLine(id + tail) == Some(ListEntry(id, tail[1] == '+', tail[3..]))
  {
    var line := id + tail;
    IndexOfAfter(id, tail, ' ');
    assert line[..|id|] == id;
    assert line[|id| + 1..] == tail[1..];
  }

  /** Reading back a line built from an id without spaces, a marker and a
      description gives those three parts. */
  lemma ParseBuiltLine(id: string, public: bool, desc: string)
    requires ' ' !in id
    ensures ParseListLine(id + [' ', Marker(public), ' '] + desc) == Some(ListEntry(id, public, desc))
  {
    var tail := [' ', Marker(public), ' '] + desc;
    assert id + [' ', Marker(public), ' '] + desc == id + tail;
    assert tail[3..] == desc;
    ParseAfterId(id, tail);
  }

  /** A `list` line determines the gist's id, visibility and description
      whenever the rendered id has no space in it. */
  lemma ListLineRoundTrip(g: GistInfo)
    requires ' ' !in Py.Str(g.id)
    ensures ParseListLine(ListLine(g)) == Some(ListEntry(Py.Str(g.id), g.public, DescText(g.desc)))
  {
    ParseBuiltLine(Py.Str(g.id), g.public, DescText(g.desc));
  }

  /** Integer ids never contain a space, so their lines always read back. */
  lemma IntegerIdLineRoundTrip(n: int, desc: Option<string>, public: bool)
    ensures ParseListLine(ListLine(GistInfo(Py.SInt(n), desc, public)))
            == Some(ListEntry(Py.Str(Py.SInt(n)), public, DescText(desc)))
  {
    var s := Py.Str(Py.SInt(n));
    assert forall k :: 0 <= k < |s| ==> s[k] != ' ' by {
      if n < 0 {
        assert s == "-" + Py.Digits(-n);
        forall k | 0 <= k < |s| ensures s[k] != ' ' {
          if k > 0 { assert s[k] == Py.Digits(-n)[k - 1]; }
        }
      }
    }
    ListLineRoundTrip(GistInfo(Py.SInt(n), desc, public));
  }

  /** The command-line list test: two gists, no terminal. */
  lemma ListExample()
    ensures HandleList([GistInfo(Py.SInt(1), Some("test-desc-A"), true),
                        GistInfo(Py.SInt(2), Some("test-desc-\U{212C}"), false)], None)
            == ["1 + test-desc-A", "2 - test-desc-\U{212C}"]
  {
    assert Py.Str(Py.SInt(1)) == "1" && Py.Str(Py.SInt(2)) == "2";
    assert ListLine(GistInfo(Py.SInt(1), Some("test-desc-A"), true)) == "1" + " + " + "test-desc-A";
    assert ListLine(GistInfo(Py.SInt(2), Some("test-desc-\U{212C}"), false)) == "2" + " - " + "test-desc-\U{212C}";
    assert "1" + " + " + "test-desc-A" == "1 + test-desc-A";
    assert "2" + " - " + "test-desc-\U{212C}" == "2 - test-desc-\U{212C}";
  }

  // ---------------------------------------------------------------------
  // content
  // ---------------------------------------------------------------------

  /** The file name to text mapping `GistAPI.content` returns, as its items
      in dictionary order. */
  type FileTexts = seq<(string, string)>

  /** The file names of a gist are the keys of a dictionary, so no two
      entries share a name. */
  predicate DistinctNames(files: FileTexts) {
    forall i, j :: 0 <= i < j < |files| ==> files[i].0 != files[j].0
  }

  /** `dict.get(name)`; a `None` name is never a key. */
  function Lookup(files: FileTexts, name: Option<string>): (r: Option<string>)
    ensures r.Some? <==> name.Some? && exists i :: 0 <= i < |files| && files[i].0 == name.value
    ensures r.Some? ==> exists i :: 0 <= i < |files| && files[i] == (name.value, r.value)
                                   && forall j :: 0 <= j < i ==> files[j].0 != name.value
    ensures r.Some? && DistinctNames(files) ==>
              forall i :: 0 <= i < |files| && files[i].0 == name.value ==> r.value == files[i].1
  {
    if name.None? || files == [] then None
    else if files[0].0 == name.value then Some(files[0].1)
    else
      var tail := files[1..];
      var r := Lookup(tail, name);
      assert forall i :: 1 <= i < |files| ==> tail[i - 1] == files[i];
      if r.None? then r
      else
        var i :| 0 <= i < |tail| && tail[i] == (name.value, r.value)
                 && forall j :: 0 <= j < i ==> tail[j].0 != name.value;
        assert forall j :: 0 <= j < i + 1 ==> files[j].0 != name.value;
        r
  }

  const HomedirMissing := "gnupg-homedir missing from config file"
  const FingerprintMissing := "gnupg-fingerprint missing from config file"

  /** One file of the "all files" output: `print("{}:\n{}\n".format(...))`,
      whose heading is the name, or the name and " (decrypted)". */
  function Block(heading: string, text: string): string {
    heading + ":\n" + text + "\n\n"
  }

  /** The text of a file printed as it is. */
  function Plain(text: string): string {
    text
  }

  /** The text of a file decrypted with the GnuPG home directory `homedir`. */
  function Decryptor(decrypt: (string, string) -> string, homedir: string): string -> string {
    t => decrypt(homedir, t)
  }

  /** The "all files" output: one block per file, in dictionary order, with
      `show` applied to each text and `suffix` appended to each name. */
  function Listing(files: FileTexts, suffix: string, show: string -> string): string {
    if files == [] then ""
    else Block(files[0].0 + suffix, show(files[0].1)) + Listing(files[1..], suffix, show)
  }

  /** The listing of a sequence of files is the listings of its two parts
      put together. */
  lemma {:induction false} ListingAppend(a: FileTexts, b: FileTexts, suffix: string, show: string -> string)
    ensures Listing(a + b, suffix, show) == Listing(a, suffix, show) + Listing(b, suffix, show)
  {
    if a == [] {
      assert a + b == b;
    } else {
      assert (a + b)[0] == a[0];
      assert (a + b)[1..] == a[1..] + b;
      ListingAppend(a[1..], b, suffix, show);
    }
  }

  /** Every file appears in the listing as its own block, between the blocks
      of the files before it and those after it. */
  lemma ListingHasEveryFile(files: FileTexts, i: int, suffix: string, show: string -> string)
    requires 0 <= i < |files|
    ensures Listing(files, suffix, show)
            == Listing(files[..i], suffix, show)
               + Block(files[i].0 + suffix, show(files[i].1))
               + Listing(files[i + 1..], suffix, show)
  {
    assert files == files[..i] + files[i..];
    ListingAppend(files[..i], files[i..], suffix, show);
    assert files[i..][1..] == files[i + 1..];
  }

  /** `handle_gist_content`. A file name that is a key selects that file's
      text alone; any other name, or none, prints every file. Decryption
      needs `gnupg-homedir` and decrypts with the opaque `decrypt`. */
  function HandleContent(files: FileTexts, filename: Option<string>, decryptFlag: bool,
                         cfg: Config.ConfigFile, decrypt: (string, string) -> string): (out: Result<string>)
    ensures decryptFlag && !Config.HasOption(cfg, Config.GistSection, "gnupg-homedir") ==>
              out == Err(GistError(HomedirMissing))
    ensures !decryptFlag ==> out.Ok?
    ensures decryptFlag && Config.HasOption(cfg, Config.GistSection, "gnupg-homedir") && Lookup(files, filename).Some? ==>
              out == Ok(decrypt(cfg[Config.GistSection]["gnupg-homedir"], Lookup(files, filename).value) + "\n")
    ensures !decryptFlag && Lookup(files, filename).Some? ==> out == Ok(Lookup(files, filename).value + "\n")
    ensures !decryptFlag && Lookup(files, filename).None? ==> out == Ok(Listing(files, "", Plain))
    ensures decryptFlag && Config.HasOption(cfg, Config.GistSection, "gnupg-homedir") && Lookup(files, filename).None? ==>
              out == Ok(Listing(files, " (decrypted)", Decryptor(decrypt, cfg[Config.GistSection]["gnupg-homedir"])))
  {
    var selected := Lookup(files, filename);
    if decryptFlag then
      if !Config.HasOption(cfg, Config.GistSection, "gnupg-homedir") then Err(GistError(HomedirMissing))
      else
        var homedir := cfg[Config.GistSection]["gnupg-homedir"];
        if selected.Some? then Ok(decrypt(homedir, selected.value) + "\n")
        else Ok(Listing(files, " (decrypted)", Decryptor(decrypt, homedir)))
    else if selected.Some? then Ok(selected.value + "\n")
    else Ok(Listing(files, "", Plain))
  }

  /** A file name that is not in the gist prints exactly what no file name
      prints, with or without decryption. */
  lemma ContentMissingNameFallsBack(files: FileTexts, name: string, decryptFlag: bool,
                                    cfg: Config.ConfigFile, decrypt: (string, string) -> string)
    requires forall i :: 0 <= i < |files| ==> files[i].0 != name
    ensures HandleContent(files, Some(name), decryptFlag, cfg, decrypt)
            == HandleContent(files, None, decryptFlag, cfg, decrypt)
  {
  }

  /** Without a selected file, every file's name, a colon, and its text
      appear in the output, in dictionary order. */
  lemma ContentShowsEveryFile(files: FileTexts, i: int, cfg: Config.ConfigFile, decrypt: (string, string) -> string)
    requires 0 <= i < |files|
    ensures var out := HandleContent(files, None, false, cfg, decrypt).value;
            exists before, after ::
              out == before + files[i].0 + ":\n" + files[i].1 + "\n\n" + after
  {
    var show := Plain;
    ListingHasEveryFile(files, i, "", show);
    var before := Listing(files[..i], "", show);
    var after := Listing(files[i + 1..], "", show);
    assert files[i].0 + "" == files[i].0;
    assert HandleContent(files, None, false, cfg, decrypt).value
           == before + files[i].0 + ":\n" + files[i].1 + "\n\n" + after;
  }

  /** With decryption and no selected file, every file's name, marked
      " (decrypted)", and its decrypted text appear in the output, in
      dictionary order. */
  lemma ContentDecryptsEveryFile(files: FileTexts, i: int, cfg: Config.ConfigFile, decrypt: (string, string) -> string)
    requires 0 <= i < |files|
    requires Config.HasOption(cfg, Config.GistSection, "gnupg-homedir")
    ensures var homedir := cfg[Config.GistSection]["gnupg-homedir"];
            var out := HandleContent(files, None, true, cfg, decrypt);
            out.Ok? &&
            exists before, after ::
              out.value == before + files[i].0 + " (decrypted):\n" + decrypt(homedir, files[i].1) + "\n\n" + after
  {
    var homedir := cfg[Config.GistSection]["gnupg-homedir"];
    var show := Decryptor(decrypt, homedir);
    assert HandleContent(files, None, true, cfg, decrypt) == Ok(Listing(files, " (decrypted)", show));
    ListingHasEveryFile(files, i, " (decrypted)", show);
    var before := Listing(files[..i], " (decrypted)", show);
    var after := Listing(files[i + 1..], " (decrypted)", show);
    assert Listing(files, " (decrypted)", show)
           == before + files[i].0 + " (decrypted):\n" + decrypt(homedir, files[i].1) + "\n\n" + after;
  }

  /** The command-line content test: two files, no file name, no
      decryption. */
  lemma ContentExample(cfg: Config.ConfigFile, decrypt: (string, string) -> string)
    ensures HandleContent([("file-A.txt", "test-content-A"), ("file-B.txt", "test-content-\U{212C}")],
                          None, false, cfg, decrypt)
            == Ok("file-A.txt:\ntest-content-A\n\n" + "file-B.txt:\ntest-content-\U{212C}\n\n")
  {
    var a := ("file-A.txt", "test-content-A");
    var b := ("file-B.txt", "test-content-\U{212C}");
    ListingAppend([a], [b], "", Plain);
    assert [a] + [b] == [a, b];
    ListingOne(a, "", Plain);
    ListingOne(b, "", Plain);
    assert Block(a.0 + "", a.1) == "file-A.txt:\ntest-content-A\n\n";
    assert Block(b.0 + "", b.1) == "file-B.txt:\ntest-content-\U{212C}\n\n";
  }

  /** The listing of one file is that file's block. */
  lemma ListingOne(f: (string, string), suffix: string, show: string -> string)
    ensures Listing([f], suffix, show) == Block(f.0 + suffix, show(f.1))
  {
    assert [f][1..] == [];
    assert Listing([f], suffix, show) == Block(f.0 + suffix, show(f.1)) + Listing([], suffix, show);
  }

  // ---------------------------------------------------------------------
  // create
  // ---------------------------------------------------------------------

  /** `FileInfo(name, content)` */
  datatype FileInfo = FileInfo(name: string, content: string)

  /** The arguments `handle_gist_create` reads. */
  datatype CreateArgs = CreateArgs(desc: string, public: bool, encrypt: bool,
                                   files: seq<string>, filename: Option<string>)

  /** Where the content can come from: whether standard input is a terminal,
      the readable files by path, the text left in the temporary file after
      the editor exits, and the text on standard input. */
  datatype Input = Input(isatty: bool, disk: map<string, string>, editorText: string, stdinText: string)

  /** The call `gapi.create(desc, files, public)` with the payload reduced to
      file name to content. */
  datatype CreateCall = CreateCall(desc: string, files: map<string, string>, public: bool)

  const DefaultFileName := "file1.txt"
  const EncryptedSuffix := ".asc"

  /** Reads the named files, each under its base name. */
  function ReadFiles(paths: seq<string>, disk: map<string, string>): (r: Result<seq<FileInfo>>)
    ensures r.Ok? <==> forall i :: 0 <= i < |paths| ==> paths[i] in disk
    ensures r.Ok? ==> |r.value| == |paths|
                      && forall i :: 0 <= i < |paths| ==> r.value[i] == FileInfo(Py.Basename(paths[i]), disk[paths[i]])
    ensures r.Err? ==> r.error.FileNotFoundError? && r.error.path !in disk
    ensures r.Err? ==> exists i :: 0 <= i < |paths| && r.error == FileNotFoundError(paths[i])
                                   && paths[i] !in disk && forall j :: 0 <= j < i ==> paths[j] in disk
  {
    if paths == [] then Ok([])
    else if paths[0] !in disk then Err(FileNotFoundError(paths[0]))
    else
      var tail := paths[1..];
      assert forall i :: 1 <= i < |paths| ==> tail[i - 1] == paths[i];
      match ReadFiles(tail, disk)
      case Err(e) =>
        var i :| 0 <= i < |tail| && e == FileNotFoundError(tail[i]) && tail[i] !in disk
                 && forall j :: 0 <= j < i ==> tail[j] in disk;
        assert forall j :: 0 <= j < i + 1 ==> paths[j] in disk;
        assert e == FileNotFoundError(paths[i + 1]);
        Err(e)
      case Ok(rest) =>
        var r := [FileInfo(Py.Basename(paths[0]), disk[paths[0]])] + rest;
        assert forall i :: 1 <= i < |paths| ==> r[i] == rest[i - 1];
        Ok(r)
  }

  /** The input stage of `handle_gist_create`: named files when on a
      terminal and files are given, else the editor's text on a terminal,
      else standard input; single-file input is named `--filename` or
      `file1.txt`. */
  function GatherFiles(args: CreateArgs, cfg: Config.ConfigFile, input: Input): (r: Result<seq<FileInfo>>)
    ensures r.Ok? && !(input.isatty && |args.files| > 0) ==>
              var name := if args.filename.None? then DefaultFileName else args.filename.value;
              r.value == [FileInfo(name, if input.isatty then input.editorText else input.stdinText)]
    ensures !input.isatty ==> r.Ok?
    ensures input.isatty && |args.files| > 0 ==> r == ReadFiles(args.files, input.disk)
    ensures input.isatty && |args.files| == 0 ==>
              (r.Ok? <==> !Config.HasOption(cfg, Config.GistSection, "delete-tempfiles")
                          || Config.GetBoolean(cfg, Config.GistSection, "delete-tempfiles").Ok?)
    ensures input.isatty && |args.files| == 0 && r.Err? ==>
              r == Err(Config.GetBoolean(cfg, Config.GistSection, "delete-tempfiles").error)
  {
    var name := if args.filename.None? then DefaultFileName else args.filename.value;
    if input.isatty then
      if |args.files| > 0 then ReadFiles(args.files, input.disk)
      else
        // `delete-tempfiles` only decides whether the temporary file is
        // removed, but a value that is not a boolean raises.
        var _ :- if Config.HasOption(cfg, Config.GistSection, "delete-tempfiles")
                 then Config.GetBoolean(cfg, Config.GistSection, "delete-tempfiles")
                 else Ok(true);
        Ok([FileInfo(name, input.editorText)])
    else Ok([FileInfo(name, input.stdinText)])
  }

  /** The message for an empty file. */
  function EmptyFileMessage(name: string): string {
    "'" + name + "' is empty"
  }

  /** The first file with no content, if any. */
  function FirstEmpty(files: seq<FileInfo>): (r: Option<nat>)
    ensures r.None? <==> forall i :: 0 <= i < |files| ==> |files[i].content| > 0
    ensures r.Some? ==> r.value < |files| && |files[r.value].content| == 0
                        && forall i :: 0 <= i < r.value ==> |files[i].content| > 0
  {
    if files == [] then None
    else if |files[0].content| == 0 then Some(0)
    else
      var k := FirstEmpty(files[1..]);
      assert forall i :: 1 <= i < |files| ==> files[1..][i - 1] == files[i];
      if k.None? then None else Some(k.value + 1)
  }

  /** The payload key of a file: its name, with ".asc" when encrypting. */
  function PayloadKey(f: FileInfo, encrypt: bool): string {
    if encrypt then f.name + EncryptedSuffix else f.name
  }

  /** The encryption settings and the opaque GnuPG call
      `gpg(homedir, fingerprint, plaintext)`. */
  datatype Sealer = Sealer(gpg: (string, string, string) -> string, homedir: string, fingerprint: string)

  /** The payload content of a file: its text, or its ciphertext. */
  function PayloadValue(f: FileInfo, encrypt: bool, seal: Sealer): string {
    if encrypt then seal.gpg(seal.homedir, seal.fingerprint, f.content) else f.content
  }

  /** The keys of the payload: every file's key. */
  function PayloadKeys(files: seq<FileInfo>, encrypt: bool): (keys: set<string>)
    ensures forall i :: 0 <= i < |files| ==> PayloadKey(files[i], encrypt) in keys
    decreases |files|
  {
    if files == [] then {}
    else
      var init := files[..|files| - 1];
      assert forall i :: 0 <= i < |init| ==> init[i] == files[i];
      PayloadKeys(init, encrypt) + {PayloadKey(files[|files| - 1], encrypt)}
  }

  /** The index of the last file whose payload key is `k`: every key of the
      payload comes from some file. */
  function LastWithKey(files: seq<FileInfo>, k: string, encrypt: bool): (i: nat)
    requires k in PayloadKeys(files, encrypt)
    ensures i < |files| && PayloadKey(files[i], encrypt) == k
    ensures forall j :: i < j < |files| ==> PayloadKey(files[j], encrypt) != k
    decreases |files|
  {
    var n := |files| - 1;
    if PayloadKey(files[n], encrypt) == k then n
    else
      var init := files[..n];
      var i := LastWithKey(init, k, encrypt);
      assert files[i] == init[i];
      i
  }

  /** The dictionary built from the files in order: one key per file, and a
      later file with the same key replaces an earlier one. */
  function Payload(files: seq<FileInfo>, encrypt: bool, seal: Sealer): (m: map<string, string>)
    ensures m.Keys == PayloadKeys(files, encrypt)
    ensures forall i :: (0 <= i < |files|
                         && (forall j :: i < j < |files| ==> PayloadKey(files[j], encrypt) != PayloadKey(files[i], encrypt)))
                        ==> m[PayloadKey(files[i], encrypt)] == PayloadValue(files[i], encrypt, seal)
    decreases |files|
  {
    if files == [] then map[]
    else
      var init := files[..|files| - 1];
      var last := files[|files| - 1];
      assert forall i :: 0 <= i < |init| ==> init[i] == files[i];
      Payload(init, encrypt, seal)[PayloadKey(last, encrypt) := PayloadValue(last, encrypt, seal)]
  }

  /** Encryption is off, or both of its settings are present. */
  predicate EncryptionConfigured(args: CreateArgs, cfg: Config.ConfigFile) {
    args.encrypt ==> Config.HasOption(cfg, Config.GistSection, "gnupg-homedir")
                     && Config.HasOption(cfg, Config.GistSection, "gnupg-fingerprint")
  }

  /** `handle_gist_create` up to the call of `gapi.create`. The encryption
      settings are checked before any input is read; every file must have
      content; the payload holds each file under its name, or under its name
      and ".asc" with its ciphertext when encrypting. */
  function HandleCreate(args: CreateArgs, cfg: Config.ConfigFile, input: Input,
                        encrypt: (string, string, string) -> string): (r: Result<CreateCall>)
    ensures args.encrypt && !Config.HasOption(cfg, Config.GistSection, "gnupg-homedir") ==>
              r == Err(GistError(HomedirMissing))
    ensures args.encrypt && Config.HasOption(cfg, Config.GistSection, "gnupg-homedir")
            && !Config.HasOption(cfg, Config.GistSection, "gnupg-fingerprint") ==>
              r == Err(GistError(FingerprintMissing))
    ensures r.Ok? ==> r.value.desc == args.desc && r.value.public == args.public
    ensures r.Ok? ==>
              && GatherFiles(args, cfg, input).Ok?
              && var files := GatherFiles(args, cfg, input).value;
                 && (forall i :: 0 <= i < |files| ==> |files[i].content| > 0)
                 && r.value.files.Keys == PayloadKeys(files, args.encrypt)
    ensures r.Ok? && !args.encrypt ==>
              var files := GatherFiles(args, cfg, input).value;
              forall i :: (0 <= i < |files| && (forall j :: i < j < |files| ==> files[j].name != files[i].name))
                          ==> r.value.files[files[i].name] == files[i].content
    ensures r.Ok? && args.encrypt ==>
              var files := GatherFiles(args, cfg, input).value;
              var homedir := cfg[Config.GistSection]["gnupg-homedir"];
              var fingerprint := cfg[Config.GistSection]["gnupg-fingerprint"];
              forall i :: (0 <= i < |files| && (forall j :: i < j < |files| ==> files[j].name != files[i].name))
                          ==> r.value.files[files[i].name + EncryptedSuffix] == encrypt(homedir, fingerprint, files[i].content)
    ensures r.Ok? && !args.encrypt ==> forall k :: k in r.value.files ==> |r.value.files[k]| > 0
    ensures EncryptionConfigured(args, cfg) && GatherFiles(args, cfg, input).Err? ==>
              r == Err(GatherFiles(args, cfg, input).error)
    ensures (EncryptionConfigured(args, cfg) && GatherFiles(args, cfg, input).Ok?
             && FirstEmpty(GatherFiles(args, cfg, input).value).Some?) ==>
              var files := GatherFiles(args, cfg, input).value;
              r == Err(GistError(EmptyFileMessage(files[FirstEmpty(files).value].name)))
    ensures (EncryptionConfigured(args, cfg) && GatherFiles(args, cfg, input).Ok?
             && FirstEmpty(GatherFiles(args, cfg, input).value).None?) ==> r.Ok?
  {
    if args.encrypt && !Config.HasOption(cfg, Config.GistSection, "gnupg-homedir") then
      Err(GistError(HomedirMissing))
    else if args.encrypt && !Config.HasOption(cfg, Config.GistSection, "gnupg-fingerprint") then
      Err(GistError(FingerprintMissing))
    else
      var files :- GatherFiles(args, cfg, input);
      CreateFromFiles(args, cfg, files, encrypt)
  }

  /** The stage of `handle_gist_create` after the input is read: the first
      empty file stops it, otherwise the payload is built from the files. */
  function CreateFromFiles(args: CreateArgs, cfg: Config.ConfigFile, files: seq<FileInfo>,
                           encrypt: (string, string, string) -> string): (r: Result<CreateCall>)
    requires EncryptionConfigured(args, cfg)
    ensures r.Ok? <==> FirstEmpty(files).None?
    ensures FirstEmpty(files).Some? ==> r == Err(GistError(EmptyFileMessage(files[FirstEmpty(files).value].name)))
    ensures r.Ok? ==> r.value.desc == args.desc && r.value.public == args.public
    ensures r.Ok? ==> (forall i :: 0 <= i < |files| ==> |files[i].content| > 0)
                      && r.value.files.Keys == PayloadKeys(files, args.encrypt)
    ensures r.Ok? && !args.encrypt ==>
              forall i :: (0 <= i < |files| && (forall j :: i < j < |files| ==> files[j].name != files[i].name))
                          ==> r.value.files[files[i].name] == files[i].content
    ensures r.Ok? && args.encrypt ==>
              var homedir := cfg[Config.GistSection]["gnupg-homedir"];
              var fingerprint := cfg[Config.GistSection]["gnupg-fingerprint"];
              forall i :: (0 <= i < |files| && (forall j :: i < j < |files| ==> files[j].name != files[i].name))
                          ==> r.value.files[files[i].name + EncryptedSuffix] == encrypt(homedir, fingerprint, files[i].content)
    ensures r.Ok? && !args.encrypt ==> forall k :: k in r.value.files ==> |r.value.files[k]| > 0
  {
    var empty := FirstEmpty(files);
    if empty.Some? then Err(GistError(EmptyFileMessage(files[empty.value].name)))
    else
      var seal :=
        if args.encrypt then
          Sealer(encrypt, cfg[Config.GistSection]["gnupg-homedir"], cfg[Config.GistSection]["gnupg-fingerprint"])
        else Sealer(encrypt, "", "");
      var payload := Payload(files, args.encrypt, seal);
      PlainPayloadNonEmpty(files, args.encrypt, seal);
      EncryptedKeysFollowNames(files, args.encrypt);
      Ok(CreateCall(args.desc, payload, args.public))
  }

  /** Without encryption, files that all have content give a payload whose
      every value has content. */
  lemma PlainPayloadNonEmpty(files: seq<FileInfo>, encrypt: bool, seal: Sealer)
    requires forall i :: 0 <= i < |files| ==> |files[i].content| > 0
    ensures !encrypt ==> forall k :: k in Payload(files, encrypt, seal) ==> |Payload(files, encrypt, seal)[k]| > 0
  {
    if !encrypt {
      var payload := Payload(files, encrypt, seal);
      forall k | k in payload ensures |payload[k]| > 0 {
        var i := LastWithKey(files, k, false);
        assert payload[k] == files[i].content;
      }
    }
  }

  /** Payload keys are distinct exactly where file names are. */
  lemma EncryptedKeysFollowNames(files: seq<FileInfo>, encrypt: bool)
    ensures forall i, j :: 0 <= i < |files| && 0 <= j < |files| && files[j].name != files[i].name ==>
              PayloadKey(files[j], encrypt) != PayloadKey(files[i], encrypt)
  {
    forall i, j | 0 <= i < |files| && 0 <= j < |files| && files[j].name != files[i].name
      ensures PayloadKey(files[j], encrypt) != PayloadKey(files[i], encrypt)
    {
      if encrypt {
        SuffixInjective(files[j].name, files[i].name, EncryptedSuffix);
      }
    }
  }

  /** Appending the same suffix keeps distinct names distinct. */
  lemma SuffixInjective(a: string, b: string, suffix: string)
    requires a != b
    ensures a + suffix != b + suffix
  {
    if |a| == |b| {
      var k :| 0 <= k < |a| && a[k] != b[k];
      assert (a + suffix)[k] == a[k];
      assert (b + suffix)[k] == b[k];
    }
  }

  /** Any empty file stops `create` with an error naming the first one, once
      the encryption settings it needs are present and the input was read. */
  lemma CreateRejectsEmptyFile(args: CreateArgs, cfg: Config.ConfigFile, input: Input,
                               encrypt: (string, string, string) -> string, i: int)
    requires args.encrypt ==> Config.HasOption(cfg, Config.GistSection, "gnupg-homedir")
                              && Config.HasOption(cfg, Config.GistSection, "gnupg-fingerprint")
    requires GatherFiles(args, cfg, input).Ok?
    requires var files := GatherFiles(args, cfg, input).value;
             0 <= i < |files| && |files[i].content| == 0
             && forall j :: 0 <= j < i ==> |files[j].content| > 0
    ensures HandleCreate(args, cfg, input, encrypt)
            == Err(GistError(EmptyFileMessage(GatherFiles(args, cfg, input).value[i].name)))
  {
    var files := GatherFiles(args, cfg, input).value;
    assert FirstEmpty(files) == Some(i);
  }

  /** Piped input, or editor input on a terminal, without `--filename`
      becomes the single file `file1.txt`, or `file1.txt.asc` when
      encrypting. */
  lemma CreateDefaultFileName(args: CreateArgs, cfg: Config.ConfigFile, input: Input,
                              encrypt: (string, string, string) -> string)
    requires args.filename.None? && !(input.isatty && |args.files| > 0)
    requires HandleCreate(args, cfg, input, encrypt).Ok?
    ensures HandleCreate(args, cfg, input, encrypt).value.files.Keys
            == {if args.encrypt then DefaultFileName + EncryptedSuffix else DefaultFileName}
  {
    var files := GatherFiles(args, cfg, input).value;
    assert |files| == 1 && files[0].name == DefaultFileName;
    assert files[..0] == [];
  }

  // ---------------------------------------------------------------------
  // main
  // ---------------------------------------------------------------------

  /** What `main` has resolved before dispatching a command. */
  datatype Session = Session(config: Config.ConfigFile, editor: string, token: string)

  /** The set-up part of `main`: the given configuration or the loaded one,
      then the editor, then the token; the first failure wins. */
  function Setup(given: Option<Config.ConfigFile>, fs: Config.FileSystem, home: string,
                 env: Config.Environment, read: string -> Config.ReadResult,
                 run: string -> Config.Process): (r: Result<Session>)
    ensures given.None? && Config.ConfigPath(fs, home, env).None? ==>
              r == Err(UserError(Config.NoConfigMessage))
    ensures given.Some? && Config.ResolveEditor(fs, env, given.value).Err? ==>
              r == Err(Config.ResolveEditor(fs, env, given.value).error)
    ensures r.Ok? ==> Config.GistSection in r.value.config
                      && Config.ResolveEditor(fs, env, r.value.config) == Ok(r.value.editor)
                      && Config.GetPersonalAccessToken(r.value.config, run) == Ok(r.value.token)
    ensures r.Ok? && given.Some? ==> r.value.config == given.value
    ensures given.None? && Config.LoadConfigFile(fs, home, env, read).Err? ==>
              r == Err(Config.LoadConfigFile(fs, home, env, read).error)
    ensures given.Some? || Config.LoadConfigFile(fs, home, env, read).Ok? ==>
              var cfg := if given.Some? then given.value else Config.LoadConfigFile(fs, home, env, read).value;
              && (Config.ResolveEditor(fs, env, cfg).Err? ==> r == Err(Config.ResolveEditor(fs, env, cfg).error))
              && (Config.ResolveEditor(fs, env, cfg).Ok? && Config.GetPersonalAccessToken(cfg, run).Err? ==>
                    r == Err(Config.GetPersonalAccessToken(cfg, run).error))
              && (Config.ResolveEditor(fs, env, cfg).Ok? && Config.GetPersonalAccessToken(cfg, run).Ok? ==>
                    r == Ok(Session(cfg, Config.ResolveEditor(fs, env, cfg).value,
                                    Config.GetPersonalAccessToken(cfg, run).value)))
  {
    var cfg :- if given.Some? then Ok(given.value) else Config.LoadConfigFile(fs, home, env, read);
    var editor :- Config.ResolveEditor(fs, env, cfg);
    var token :- Config.GetPersonalAccessToken(cfg, run);
    Ok(Session(cfg, editor, token))
  }

  /** What `main` writes to standard error: a prefixed line, or a message
      handed to the logger, or nothing. */
  datatype Report = Stderr(text: string) | Logged(text: string) | Quiet

  /** The exit status and the error report of one run. */
  datatype Exit = Exit(code: int, report: Report)

  /** `str(e)` for the exceptions that reach `main`'s catch-all. */
  function Describe(e: Exception): string {
    match e
    case UserError(m) => m
    case GistError(m) => m
    case GistMissingTokenError(m) => m
    case GistEmptyTokenError(m) => m
    case NoSectionError(s) => "No section: '" + s + "'"
    case NoOptionError(o, s) => "No option '" + o + "' in section: '" + s + "'"
    case FileNotFoundError(p) => "[Errno 2] No such file or directory: '" + p + "'"
    case ValueError(m) => m
    case IndexError(m) => m
    case KeyError(k) => "'" + k + "'"
    case AttributeError(m) => m
  }

  /** The exception handlers of `main`: `UserError` prints "ERROR: ",
      `GistError` and its subclasses print "GIST: ", anything else is logged;
      all of them exit with status 1, and a run without exception with 0. */
  function ExitFor<T>(outcome: Result<T>): (x: Exit)
    ensures x.code == 0 <==> outcome.Ok?
    ensures x.code == 0 || x.code == 1
    ensures outcome.Err? && outcome.error.UserError? ==> x.report == Stderr("ERROR: " + outcome.error.msg + "\n")
    ensures outcome.Err? && outcome.error.IsGistError() ==> x.report == Stderr("GIST: " + outcome.error.msg + "\n")
    ensures x.report.Stderr? ==> outcome.Err? && (outcome.error.UserError? || outcome.error.IsGistError())
    ensures outcome.Ok? ==> x.report == Quiet
    ensures outcome.Err? && !outcome.error.UserError? && !outcome.error.IsGistError() ==>
              x.report == Logged(Describe(outcome.error))
  {
    match outcome
    case Ok(_) => Exit(0, Quiet)
    case Err(e) =>
      if e.UserError? then Exit(1, Stderr("ERROR: " + e.msg + "\n"))
      else if e.IsGistError() then Exit(1, Stderr("GIST: " + e.msg + "\n"))
      else Exit(1, Logged(Describe(e)))
  }

  /** `main`: set up, dispatch the command, and map the outcome to an exit. */
  function Main(given: Option<Config.ConfigFile>, fs: Config.FileSystem, home: string,
                env: Config.Environment, read: string -> Config.ReadResult,
                run: string -> Config.Process, command: Session -> Result<string>): (x: Exit)
    ensures x.code == 0 <==> Setup(given, fs, home, env, read, run).Ok?
                             && command(Setup(given, fs, home, env, read, run).value).Ok?
  {
    var outcome := match Setup(given, fs, home, env, read, run)
      case Ok(session) => command(session)
      case Err(e) => Err(e);
    ExitFor(outcome)
  }

  /** A missing token is reported as "GIST: Missing 'token' field in
      configuration" with exit status 1, provided an editor was found. */
  lemma MissingTokenExit(cfg: Config.ConfigFile, fs: Config.FileSystem, home: string, env: Config.Environment,
                         read: string -> Config.ReadResult, run: string -> Config.Process,
                         command: Session -> Result<string>)
    requires Config.GistSection in cfg && "token" !in cfg[Config.GistSection]
    requires Config.ResolveEditor(fs, env, cfg).Ok?
    ensures Main(Some(cfg), fs, home, env, read, run, command)
            == Exit(1, Stderr("GIST: " + Config.MissingTokenMessage + "\n"))
  {
  }

  /** No editor anywhere is reported before any token problem. */
  lemma MissingEditorExit(cfg: Config.ConfigFile, fs: Config.FileSystem, home: string, env: Config.Environment,
                          read: string -> Config.ReadResult, run: string -> Config.Process,
                          command: Session -> Result<string>)
    requires Config.GistSection in cfg && !Config.HasOption(cfg, Config.GistSection, "editor")
    requires !fs.Exists(Config.AlternativesEditor)
    requires "EDITOR" !in env
    ensures Main(Some(cfg), fs, home, env, read, run, command)
            == Exit(1, Stderr("ERROR: " + Config.NoEditorMessage + "\n"))
  {
    assert Py.Strip("") == "";
  }
}

=== FILE: config.dfy ===
/** Configuration resolution of the command-line client: where the
    configuration file is found, how the access token is validated, and which
    editor is chosen. The filesystem, the environment, the file reader and
    the shell are parameters, so each resolution chain is a pure fold. */
module Config {
  import opened Types
  import Py

  /** The options of one section of an INI file. */
  type Section = map<string, string>

  /** A parsed INI file: section name to its options. */
  type ConfigFile = map<string, Section>

  /** Environment variables. */
  type Environment = map<string, string>

  const GistSection := "gist"

  /** The paths that exist: regular files and directories. */
  datatype FileSystem = FileSystem(files: set<string>, dirs: set<string>) {
    /** `os.path.exists` */
    predicate Exists(p: string) {
      p in files || p in dirs
    }

    /** `pathlib.Path.is_file` */
    predicate IsFile(p: string) {
      p in files
    }
  }

  /** What reading and parsing one configuration file gives: the parsed file,
      or the text of the exception that stopped it. */
  datatype ReadResult = Parsed(config: ConfigFile) | Unreadable(reason: string)

  /** The outcome of running a shell command. */
  datatype Process = Process(returnCode: int, stdout: string, stderr: string)

  /** `ConfigParser.get(section, option)`: the value, or the exception for a
      missing section or a missing option. */
  function Get(cfg: ConfigFile, section: string, option: string): (r: Result<string>)
    ensures r.Ok? <==> section in cfg && option in cfg[section]
    ensures r.Ok? ==> r.value == cfg[section][option]
    ensures section !in cfg ==> r == Err(NoSectionError(section))
    ensures section in cfg && option !in cfg[section] ==> r == Err(NoOptionError(option, section))
  {
    if section !in cfg then Err(NoSectionError(section))
    else if option !in cfg[section] then Err(NoOptionError(option, section))
    else Ok(cfg[section][option])
  }

  /** `ConfigParser.has_option(section, option)`, false for a missing section. */
  predicate HasOption(cfg: ConfigFile, section: string, option: string) {
    section in cfg && option in cfg[section]
  }

  /** The strings `ConfigParser.getboolean` accepts, after lower-casing. */
  const TrueWords: set<string> := {"1", "yes", "true", "on"}
  const FalseWords: set<string> := {"0", "no", "false", "off"}

  /** `ConfigParser.getboolean(section, option)`. */
  function GetBoolean(cfg: ConfigFile, section: string, option: string): (r: Result<bool>)
    ensures r.Ok? ==> HasOption(cfg, section, option)
    ensures r == Ok(true) <==> HasOption(cfg, section, option) && Py.AsciiLower(cfg[section][option]) in TrueWords
    ensures r == Ok(false) <==> HasOption(cfg, section, option) && Py.AsciiLower(cfg[section][option]) in FalseWords
  {
    var v :- Get(cfg, section, option);
    var w := Py.AsciiLower(v);
    if w in TrueWords then Ok(true)
    else if w in FalseWords then Ok(false)
    else Err(ValueError("Not a boolean: " + v))
  }

  // ---------------------------------------------------------------------
  // Access token
  // ---------------------------------------------------------------------

  /** `get_value_from_command`. A value whose stripped form starts with `!`
      names a shell command (run by `run`) whose stripped standard output is
      the value; any other value comes back exactly as given, unstripped. An
      all-blank value fails on `command[0]`. */
  function GetValueFromCommand(value: string, run: string -> Process): (r: Result<string>)
    ensures Py.Strip(value) == [] ==> r.Err? && r.error.IndexError?
    ensures Py.Strip(value) != [] && Py.Strip(value)[0] != '!' ==> r == Ok(value)
    ensures Py.Strip(value) != [] && Py.Strip(value)[0] == '!' ==>
              (r.Ok? ==> Py.Stripped(r.value) && r.value == Py.Strip(run(Py.Strip(value)[1..]).stdout))
              && (r.Err? <==> run(Py.Strip(value)[1..]).returnCode != 0)
    ensures Py.Strip(value) != [] && Py.Strip(value)[0] == '!' && run(Py.Strip(value)[1..]).returnCode != 0 ==>
              r == Err(GistError(run(Py.Strip(value)[1..]).stderr))
  {
    var command := Py.Strip(value);
    if command == [] then Err(IndexError("string index out of range"))
    else if command[0] == '!' then
      var p := run(command[1..]);
      if p.returnCode != 0 then Err(GistError(p.stderr)) else Ok(Py.Strip(p.stdout))
    else Ok(value)
  }

  const MissingTokenMessage := "Missing 'token' field in configuration"
  const EmptyTokenMessage := "An empty token is not valid"

  /** `get_personal_access_token`. Only a missing option is turned into
      `GistMissingTokenError`; a missing `gist` section is not caught. */
  function GetPersonalAccessToken(cfg: ConfigFile, run: string -> Process): (r: Result<string>)
    ensures GistSection !in cfg ==> r == Err(NoSectionError(GistSection))
    ensures GistSection in cfg && "token" !in cfg[GistSection] ==>
              r == Err(GistMissingTokenError(MissingTokenMessage))
    ensures HasOption(cfg, GistSection, "token") && Py.AllSpace(cfg[GistSection]["token"]) ==>
              r == Err(GistEmptyTokenError(EmptyTokenMessage))
    ensures HasOption(cfg, GistSection, "token") && !Py.AllSpace(cfg[GistSection]["token"])
            && Py.Strip(cfg[GistSection]["token"])[0] != '!' ==>
              r == Ok(Py.Strip(cfg[GistSection]["token"]))
    ensures HasOption(cfg, GistSection, "token") && !Py.AllSpace(cfg[GistSection]["token"]) ==>
              r == GetValueFromCommand(Py.Strip(cfg[GistSection]["token"]), run)
    ensures r.Ok? ==> Py.Stripped(r.value)
  {
    match Get(cfg, GistSection, "token")
    case Err(e) =>
      if e.NoOptionError? then Err(GistMissingTokenError(MissingTokenMessage)) else Err(e)
    case Ok(raw) =>
      var value := Py.Strip(raw);
      if value == [] then Err(GistEmptyTokenError(EmptyTokenMessage))
      else GetValueFromCommand(value, run)
  }

  /** A literal token comes back stripped, so writing it back into the
      configuration and validating again gives the same token. */
  lemma LiteralTokenIsStable(cfg: ConfigFile, run: string -> Process)
    requires HasOption(cfg, GistSection, "token")
    requires !Py.AllSpace(cfg[GistSection]["token"])
    requires Py.Strip(cfg[GistSection]["token"])[0] != '!'
    ensures var t := Py.Strip(cfg[GistSection]["token"]);
            GetPersonalAccessToken(cfg[GistSection := cfg[GistSection]["token" := t]], run) == Ok(t)
  {
    var t := Py.Strip(cfg[GistSection]["token"]);
    Py.StripFixedPoint(t);
  }

  /** The configuration tests: a `gist` section without a token. */
  lemma MissingTokenExample(run: string -> Process)
    ensures GetPersonalAccessToken(map[GistSection := map[]], run) == Err(GistMissingTokenError(MissingTokenMessage))
  {
  }

  /** The configuration tests: empty and blank tokens. */
  lemma EmptyTokenExamples(run: string -> Process)
    ensures GetPersonalAccessToken(map[GistSection := map["token" := ""]], run) == Err(GistEmptyTokenError(EmptyTokenMessage))
    ensures GetPersonalAccessToken(map[GistSection := map["token" := "   "]], run) == Err(GistEmptyTokenError(EmptyTokenMessage))
  {
  }

  /** The configuration tests: a padded literal token is returned stripped. */
  lemma PaddedTokenExample(run: string -> Process)
    ensures GetPersonalAccessToken(map[GistSection := map["token" := "   123   "]], run) == Ok("123")
  {
    assert "   123   " == "   " + "123" + "   ";
    Py.StripPadding("   ", "123", "   ");
  }

  /** The configuration tests: a value that is not a command is returned
      as given. */
  lemma PlainValueExample(run: string -> Process)
    ensures GetValueFromCommand("magic token", run) == Ok("magic token")
  {
    assert "magic token" == [] + "magic token" + [];
    Py.StripPadding([], "magic token", []);
  }

  /** The configuration tests' command values: whitespace before the `!`
      is ignored, the rest of the value is the command, and the command's
      output comes back without its surrounding whitespace. */
  lemma CommandValueIsStrippedOutput(lead: string, cmd: string, pre: string, out: string, post: string,
                                     run: string -> Process)
    requires Py.AllSpace(lead) && cmd != [] && !Py.IsSpace(cmd[|cmd| - 1])
    requires Py.AllSpace(pre) && Py.AllSpace(post) && out != [] && Py.Stripped(out)
    requires run(cmd).returnCode == 0 && run(cmd).stdout == pre + out + post
    ensures GetValueFromCommand(lead + ['!'] + cmd, run) == Ok(out)
  {
    var command := ['!'] + cmd;
    assert lead + ['!'] + cmd == lead + command + [];
    Py.StripPadding(lead, command, []);
    assert command[1..] == cmd;
    Py.StripPadding(pre, out, post);
  }

  // ---------------------------------------------------------------------
  // Last-wins resolution
  // ---------------------------------------------------------------------

  /** Folds a chain of "use this if present, else keep the default" steps:
      the result is the last present candidate, or `default` if none is. */
  function LastPresent<T>(cands: seq<Option<T>>, default: Option<T>): (r: Option<T>)
    ensures (forall i :: 0 <= i < |cands| ==> cands[i].None?) ==> r == default
    ensures forall i :: (0 <= i < |cands| && cands[i].Some?
                         && (forall j :: i < j < |cands| ==> cands[j].None?)) ==> r == cands[i]
    decreases |cands|
  {
    if cands == [] then default
    else
      var rest := cands[1..];
      assert forall j :: 0 <= j < |rest| ==> rest[j] == cands[j + 1];
      LastPresent(rest, if cands[0].Some? then cands[0] else default)
  }

  // ---------------------------------------------------------------------
  // Editor
  // ---------------------------------------------------------------------

  const AlternativesEditor := "/usr/bin/editor"
  const NoEditorMessage := "Unable to find an editor."

  /** `alternative_editor` */
  function AlternativeEditor(fs: FileSystem, default: Option<string>): Option<string> {
    if fs.Exists(AlternativesEditor) then Some(AlternativesEditor) else default
  }

  /** `environment_editor`: `EDITOR`, stripped, unless that is blank. */
  function EnvironmentEditor(env: Environment, default: Option<string>): Option<string> {
    var editor := Py.Strip(if "EDITOR" in env then env["EDITOR"] else "");
    if editor != "" then Some(editor) else default
  }

  /** `configuration_editor`: the `editor` option, taken as written. A
      missing `gist` section is not caught. */
  function ConfigurationEditor(cfg: ConfigFile, default: Option<string>): Result<Option<string>> {
    match Get(cfg, GistSection, "editor")
    case Ok(v) => Ok(Some(v))
    case Err(e) => if e.NoOptionError? then Ok(default) else Err(e)
  }

  /** The editor chain of `main`: alternatives editor, then `EDITOR`, then the
      configuration, each overriding the previous; no editor at all is a
      `UserError`. */
  function ResolveEditor(fs: FileSystem, env: Environment, cfg: ConfigFile): (r: Result<string>)
    ensures GistSection !in cfg ==> r == Err(NoSectionError(GistSection))
    ensures HasOption(cfg, GistSection, "editor") ==> r == Ok(cfg[GistSection]["editor"])
    ensures GistSection in cfg && !HasOption(cfg, GistSection, "editor") ==>
              (EditorCandidates(fs, env, cfg) == [None, None, None] <==> r == Err(UserError(NoEditorMessage)))
  {
    var e0 := AlternativeEditor(fs, None);
    var e1 := EnvironmentEditor(env, e0);
    var e2 :- ConfigurationEditor(cfg, e1);
    if e2.None? then Err(UserError(NoEditorMessage)) else Ok(e2.value)
  }

  /** The editor candidates in rising priority, each present only if usable. */
  function EditorCandidates(fs: FileSystem, env: Environment, cfg: ConfigFile): seq<Option<string>> {
    var envEditor := Py.Strip(if "EDITOR" in env then env["EDITOR"] else "");
    [ if fs.Exists(AlternativesEditor) then Some(AlternativesEditor) else None,
      if envEditor != "" then Some(envEditor) else None,
      if HasOption(cfg, GistSection, "editor") then Some(cfg[GistSection]["editor"]) else None ]
  }

  /** With a `gist` section, the editor chain picks the last usable candidate:
      the configured editor beats a non-blank `EDITOR`, which beats
      `/usr/bin/editor`; a whitespace-only `EDITOR` never counts. */
  lemma {:induction false} EditorIsLastCandidate(fs: FileSystem, env: Environment, cfg: ConfigFile)
    requires GistSection in cfg
    ensures var last := LastPresent(EditorCandidates(fs, env, cfg), None);
            ResolveEditor(fs, env, cfg) == if last.Some? then Ok(last.value) else Err(UserError(NoEditorMessage))
  {
    var c := EditorCandidates(fs, env, cfg);
    LastPresentOfThree(c[0], c[1], c[2], None);
    assert c == [c[0], c[1], c[2]];
  }

  /** Three steps of the fold, unrolled. */
  lemma {:induction false} LastPresentOfThree<T>(a: Option<T>, b: Option<T>, c: Option<T>, d: Option<T>)
    ensures LastPresent([a, b, c], d) == if c.Some? then c else if b.Some? then b else if a.Some? then a else d
  {
    var d1 := if a.Some? then a else d;
    var d2 := if b.Some? then b else d1;
    var d3 := if c.Some? then c else d2;
    assert [a, b, c][1..] == [b, c];
    assert [b, c][1..] == [c];
    assert [c][1..] == [];
    assert LastPresent([c], d2) == LastPresent([], d3) == d3;
    assert LastPresent([b, c], d1) == LastPresent([c], d2);
    assert LastPresent([a, b, c], d) == LastPresent([b, c], d1);
  }

  // ---------------------------------------------------------------------
  // Configuration file
  // ---------------------------------------------------------------------

  const NoConfigMessage := "unable to find config file"
  const LoadFailurePrefix := "Unable to load configuration file: "

  /** `homedir_config`: `~/.gist` */
  function HomedirConfig(fs: FileSystem, home: string, default: Option<string>): Option<string> {
    var p := Py.PathJoin(home, ".gist");
    if fs.IsFile(p) then Some(p) else default
  }

  /** `alternative_config`: `~/.config/gist` */
  function AlternativeConfig(fs: FileSystem, home: string, default: Option<string>): Option<string> {
    var p := Py.PathJoin(home, ".config/gist");
    if fs.IsFile(p) then Some(p) else default
  }

  /** `xdg_data_config`: `$XDG_DATA_HOME/gist` when the variable is set. */
  function XdgDataConfig(fs: FileSystem, env: Environment, default: Option<string>): Option<string> {
    if "XDG_DATA_HOME" in env && fs.IsFile(Py.PathJoin(env["XDG_DATA_HOME"], "gist")) then
      Some(Py.PathJoin(env["XDG_DATA_HOME"], "gist"))
    else default
  }

  /** `environment_config`: `$GIST_CONFIG` when the variable is set. */
  function EnvironmentConfig(fs: FileSystem, env: Environment, default: Option<string>): Option<string> {
    if "GIST_CONFIG" in env && fs.IsFile(env["GIST_CONFIG"]) then Some(env["GIST_CONFIG"]) else default
  }

  /** The chain at the top of `load_config_file`. */
  function ConfigPath(fs: FileSystem, home: string, env: Environment): Option<string> {
    EnvironmentConfig(fs, env, XdgDataConfig(fs, env, AlternativeConfig(fs, home, HomedirConfig(fs, home, None))))
  }

  /** The configuration locations in rising priority; a location whose
      variable is unset is absent from the list. */
  function ConfigLocations(home: string, env: Environment): seq<string> {
    [Py.PathJoin(home, ".gist"), Py.PathJoin(home, ".config/gist")]
    + (if "XDG_DATA_HOME" in env then [Py.PathJoin(env["XDG_DATA_HOME"], "gist")] else [])
    + (if "GIST_CONFIG" in env then [env["GIST_CONFIG"]] else [])
  }

  /** Each location, present exactly when it is a regular file. */
  function ExistingLocations(fs: FileSystem, locs: seq<string>): (r: seq<Option<string>>)
    ensures |r| == |locs|
    ensures forall i :: 0 <= i < |locs| ==> r[i] == (if fs.IsFile(locs[i]) then Some(locs[i]) else None)
  {
    seq(|locs|, i requires 0 <= i < |locs| => if fs.IsFile(locs[i]) then Some(locs[i]) else None)
  }

  /** The configuration path is the last location in the list that is a
      regular file, and there is none exactly when no location is one. */
  lemma {:induction false} ConfigPathIsLastExisting(fs: FileSystem, home: string, env: Environment)
    ensures ConfigPath(fs, home, env) == LastPresent(ExistingLocations(fs, ConfigLocations(home, env)), None)
    ensures ConfigPath(fs, home, env).None? <==>
              forall i :: 0 <= i < |ConfigLocations(home, env)| ==> !fs.IsFile(ConfigLocations(home, env)[i])
  {
    var locs := ConfigLocations(home, env);
    var c := ExistingLocations(fs, locs);
    var h := HomedirConfig(fs, home, None);
    var a := AlternativeConfig(fs, home, h);
    assert LastPresent(c, None) == LastPresent(c[2..], a) by {
      assert c[1..][1..] == c[2..];
    }
    var hasX := "XDG_DATA_HOME" in env;
    var hasG := "GIST_CONFIG" in env;
    var x := XdgDataConfig(fs, env, a);
    if hasX {
      assert LastPresent(c[2..], a) == LastPresent(c[3..], x) by {
        assert c[2..][1..] == c[3..];
      }
      if hasG {
        assert c[3..][1..] == [];
      } else {
        assert c[3..] == [];
      }
    } else {
      assert x == a;
      if hasG {
        assert c[2..][1..] == [];
      } else {
        assert c[2..] == [];
      }
    }
  }

  /** `load_config_file`: find the file, read it, and make sure a `gist`
      section exists. Every section the file had is kept as it was. */
  function LoadConfigFile(fs: FileSystem, home: string, env: Environment, read: string -> ReadResult): (r: Result<ConfigFile>)
    ensures ConfigPath(fs, home, env).None? ==> r == Err(UserError(NoConfigMessage))
    ensures r.Ok? ==> GistSection in r.value
    ensures r.Ok? ==> ConfigPath(fs, home, env).Some? && read(ConfigPath(fs, home, env).value).Parsed?
    ensures r.Ok? ==>
              var parsed := read(ConfigPath(fs, home, env).value).config;
              && r.value.Keys == parsed.Keys + {GistSection}
              && (forall s :: s in parsed ==> r.value[s] == parsed[s])
              && (GistSection !in parsed ==> r.value[GistSection] == map[])
    ensures ConfigPath(fs, home, env).Some? && read(ConfigPath(fs, home, env).value).Unreadable? ==>
              r == Err(UserError(LoadFailurePrefix + read(ConfigPath(fs, home, env).value).reason))
    ensures ConfigPath(fs, home, env).Some? && read(ConfigPath(fs, home, env).value).Parsed? ==> r.Ok?
  {
    match ConfigPath(fs, home, env)
    case None => Err(UserError(NoConfigMessage))
    case Some(p) =>
      match read(p)
      case Unreadable(reason) => Err(UserError(LoadFailurePrefix + reason))
      case Parsed(cfg) =>
        if GistSection in cfg then Ok(cfg) else Ok(cfg[GistSection := map[]])
  }
}

=== FILE: elide.dfy ===
/** The two versions of `elide`: the command-line client's, which only elides
    for a known width greater than 3, and the older library module's, which
    has no lower-bound guard. The terminal width is a parameter here; `None`
    stands for "no terminal". */
module Elide {
  import opened Types
  import Py

  const Ellipsis := "..."

  /** `elide` of the command-line client. A string longer than a known width
      above 3 keeps its first `width - 3` characters followed by "..." and so
      is exactly `width` long; in every other case it comes back unchanged. */
  function ClientElide(txt: string, width: Option<int>): (r: string)
    ensures width.Some? && width.value > 3 && |txt| > width.value ==>
              |r| == width.value
              && r[..width.value - 3] == txt[..width.value - 3]
              && r[width.value - 3..] == Ellipsis
    ensures !(width.Some? && width.value > 3 && |txt| > width.value) ==> r == txt
  {
    if width.Some? && width.value > 3 && |txt| > width.value then
      txt[..width.value - 3] + Ellipsis
    else
      txt
  }

  /** The documented promise "no longer than the specified width" holds for
      every width above 3, and the result never grows. */
  lemma ClientElideFits(txt: string, w: int)
    requires w > 3
    ensures |ClientElide(txt, Some(w))| <= w
    ensures |ClientElide(txt, Some(w))| <= |txt|
  {
  }

  /** Eliding twice to the same width is the same as eliding once. */
  lemma ClientElideIdempotent(txt: string, width: Option<int>)
    ensures ClientElide(ClientElide(txt, width), width) == ClientElide(txt, width)
  {
  }

  /** For widths 1 to 3 the guard leaves a longer string untouched, so the
      result is then longer than the width. */
  lemma ClientElideSmallWidthUnbounded(txt: string, w: int)
    requires w <= 3 && |txt| > w
    ensures ClientElide(txt, Some(w)) == txt
    ensures |ClientElide(txt, Some(w))| > w
  {
  }

  /** `elide(txt, width)` of the library module. `len(txt) > width` raises for
      a `None` width and the exception is swallowed, so `None` returns `txt`.
      The slice `txt[:width - 3]` follows Python's rules, so a width below 3
      counts from the end of the string. */
  function LegacyElide(txt: string, width: Option<int>): (r: string)
    ensures width.Some? && |txt| > width.value ==> |r| >= 3 && r[|r| - 3..] == Ellipsis
    ensures width.None? || |txt| <= width.value ==> r == txt
    ensures width.Some? && width.value < 3 && |txt| > width.value ==>
              r == txt[..if |txt| + width.value - 3 >= 0 then |txt| + width.value - 3 else 0] + Ellipsis
  {
    if width.Some? && |txt| > width.value then
      Py.Prefix(txt, width.value - 3) + Ellipsis
    else
      txt
  }

  /** From width 3 upwards the library version elides to exactly the width,
      keeping the first `width - 3` characters. */
  lemma LegacyElideExact(txt: string, w: int)
    requires w >= 3 && |txt| > w
    ensures |LegacyElide(txt, Some(w))| == w
    ensures LegacyElide(txt, Some(w)) == txt[..w - 3] + Ellipsis
  {
  }

  /** Without the lower-bound guard, any width below 3 that the string
      exceeds yields a result longer than the width: the three dots alone
      already are. */
  lemma LegacyElideOverflows(txt: string, w: int)
    requires w < 3 && |txt| > w
    ensures |LegacyElide(txt, Some(w))| > w
    ensures |LegacyElide(txt, Some(w))| >= 3
  {
  }

  /** A concrete case of the above: width 1 turns "abcd" into "ab...", since
      `"abcd"[:-2]` is "ab". */
  lemma LegacyElideWidthOneExample()
    ensures LegacyElide("abcd", Some(1)) == "ab..."
  {
    assert Py.Prefix("abcd", -2) == "ab";
  }

  /** Where the client's guard lets elision happen, both versions agree. */
  lemma ElideVersionsAgree(txt: string, width: Option<int>)
    requires width.None? || width.value > 3
    ensures ClientElide(txt, width) == LegacyElide(txt, width)
  {
  }
}

=== FILE: gist_api.dfy ===
/** The library module's request side: the `authenticate` decorator, which
    builds a request template for the instance it was looked up on and then
    forgets that instance, and the `GistAPI` operations `send`, `create`,
    `delete` and `list` as far as they shape what is sent or printed. The
    network transport is not modelled: an operation's result is the request
    it hands to the transport. */
module GistApi {
  import opened Types
  import Py
  import Elide

  const ApiUrl := "https://api.github.com/gists"

  /** The three headers every request carries. */
  const DefaultHeaders: map<string, string> := map[
    "Accept-Encoding" := "identity, deflate, compress, gzip",
    "User-Agent" := "python-requests/1.2.0",
    "Accept" := "*/*"
  ]

  /** A JSON value as it is handed to `json.dumps`. */
  datatype Json = Leaf(scalar: Py.Scalar) | Array(items: seq<Json>) | Object(fields: map<string, Json>)

  /** The fields of a `requests.Request` that the module sets. */
  datatype Request = Request(verb: string, url: string, headers: map<string, string>,
                             params: map<string, string>, data: Option<Json>)

  /** `GistAPI(token)` */
  datatype Api = Api(token: string)

  // ---------------------------------------------------------------------
  // authenticate
  // ---------------------------------------------------------------------

  /** The request `__call__` builds before calling the wrapped function. */
  function Template(verb: string, headers: map<string, string>, token: string): (r: Request)
    ensures r.url == ApiUrl && r.verb == verb && r.headers == headers
    ensures r.params.Keys == {"access_token"} && r.params["access_token"] == token
    ensures r.data.None?
  {
    Request(verb, ApiUrl, headers, map["access_token" := token], None)
  }

  /** The decorator object: the wrapped function (which receives the
      instance, the request template and the call's arguments), its HTTP
      verb and headers, and the instance and owner bound by the last
      `__get__`. */
  datatype Authenticate<!A, R> = Authenticate(func: (Api, Request, A) -> Result<R>, verb: string,
                                             headers: map<string, string>,
                                             instance: Option<Api>, owner: Option<string>)

  /** `authenticate(func, verb)`: nothing bound yet. */
  function NewAuthenticate<A, R>(func: (Api, Request, A) -> Result<R>, verb: string): (d: Authenticate<A, R>)
    ensures d.func == func && d.verb == verb && d.headers == DefaultHeaders
    ensures d.instance.None? && d.owner.None?
  {
    Authenticate(func, verb, DefaultHeaders, None, None)
  }

  /** `authenticate.get` */
  function AuthenticateGet<A, R>(func: (Api, Request, A) -> Result<R>): (d: Authenticate<A, R>)
    ensures d.func == func
    ensures d.verb == "GET" && d.headers == DefaultHeaders && d.instance.None? && d.owner.None?
  {
    NewAuthenticate(func, "GET")
  }

  /** `authenticate.post` */
  function AuthenticatePost<A, R>(func: (Api, Request, A) -> Result<R>): (d: Authenticate<A, R>)
    ensures d.func == func
    ensures d.verb == "POST" && d.headers == DefaultHeaders && d.instance.None? && d.owner.None?
  {
    NewAuthenticate(func, "POST")
  }

  /** `authenticate.delete` */
  function AuthenticateDelete<A, R>(func: (Api, Request, A) -> Result<R>): (d: Authenticate<A, R>)
    ensures d.func == func
    ensures d.verb == "DELETE" && d.headers == DefaultHeaders && d.instance.None? && d.owner.None?
  {
    NewAuthenticate(func, "DELETE")
  }

  /** `__get__(instance, owner)`: remembers both; `None` is the instance when
      the attribute is looked up on the class itself. */
  function Bind<A, R>(d: Authenticate<A, R>, instance: Option<Api>, owner: Option<string>): (b: Authenticate<A, R>)
    ensures b.instance == instance && b.owner == owner
    ensures b.func == d.func && b.verb == d.verb && b.headers == d.headers
  {
    d.(instance := instance, owner := owner)
  }

  /** The decorator after a call, and what the call returned or raised. */
  datatype Step<!A, R> = Step(state: Authenticate<A, R>, outcome: Result<R>)

  const NoInstanceMessage := "'NoneType' object has no attribute 'token'"

  /** `__call__(*args)`: builds the template from the bound instance's token
      and calls the wrapped function with it; whether that returns or raises,
      the `finally` clause unbinds instance and owner. With no instance bound
      the token lookup itself raises. */
  function Call<A, R(==)>(d: Authenticate<A, R>, args: A): (s: Step<A, R>)
    ensures s.state.instance.None? && s.state.owner.None?
    ensures s.state.func == d.func && s.state.verb == d.verb && s.state.headers == d.headers
    ensures d.instance.None? ==> s.outcome == Err(AttributeError(NoInstanceMessage))
    ensures d.instance.Some? ==>
              s.outcome == d.func(d.instance.value, Template(d.verb, d.headers, d.instance.value.token), args)
  {
    var outcome :=
      if d.instance.None? then Err(AttributeError(NoInstanceMessage))
      else d.func(d.instance.value, Template(d.verb, d.headers, d.instance.value.token), args);
    Step(d.(instance := None, owner := None), outcome)
  }

  /** `api.op(*args)`: attribute lookup binds the instance, then the call. */
  function Invoke<A, R(==)>(d: Authenticate<A, R>, api: Api, owner: string, args: A): Step<A, R> {
    Call(Bind(d, Some(api), Some(owner)), args)
  }

  /** Whatever was bound before, looking the operation up on an instance and
      calling it gives the wrapped function a fresh template carrying that
      instance's token, and leaves the decorator unbound again. */
  lemma InvokeUsesCallerToken<A, R>(d: Authenticate<A, R>, api: Api, owner: string, args: A)
    ensures Invoke(d, api, owner, args).state.instance.None?
    ensures Invoke(d, api, owner, args).state.owner.None?
    ensures Invoke(d, api, owner, args).outcome == d.func(api, Template(d.verb, d.headers, api.token), args)
  {
  }

  /** Because the binding is dropped after every call, calling a bound method
      object a second time, without a fresh lookup, raises. */
  lemma SecondCallWithoutLookupFails<A, R>(d: Authenticate<A, R>, api: Api, owner: string, first: A, second: A)
    ensures Call(Invoke(d, api, owner, first).state, second).outcome == Err(AttributeError(NoInstanceMessage))
  {
  }

  /** A sequence of calls made through fresh lookups, one per instance: the
      decorator ends unbound whatever the wrapped function returned or
      raised, and keeps its function, verb and headers. Which token each call
      sees is stated by `InvokeUsesCallerToken`. */
  function RunCalls<A, R(==)>(d: Authenticate<A, R>, calls: seq<(Api, A)>): (s: Authenticate<A, R>)
    ensures |calls| > 0 ==> s.instance.None? && s.owner.None?
    ensures |calls| == 0 ==> s.instance == d.instance && s.owner == d.owner
    ensures s.func == d.func && s.verb == d.verb && s.headers == d.headers
    decreases |calls|
  {
    if calls == [] then d
    else RunCalls(Invoke(d, calls[0].0, "GistAPI", calls[0].1).state, calls[1..])
  }

  // ---------------------------------------------------------------------
  // GistAPI
  // ---------------------------------------------------------------------

  /** `send(request, stem)` up to the transport: a stem is joined onto the
      URL with `os.path.join`; nothing else about the request changes. */
  function Send(request: Request, stem: Option<string>): (r: Request)
    ensures stem.None? ==> r == request
    ensures r.verb == request.verb && r.headers == request.headers
    ensures r.params == request.params && r.data == request.data
  {
    if stem.None? then request else request.(url := Py.PathJoin(request.url, stem.value))
  }

  /** A relative stem on a URL without a trailing slash lands after one
      separator, so the stem can be read back from the new URL. */
  lemma SendRelativeStem(request: Request, stem: string)
    requires request.url != [] && request.url[|request.url| - 1] != '/'
    requires stem == [] || stem[0] != '/'
    ensures Send(request, Some(stem)).url == request.url + "/" + stem
    ensures Send(request, Some(stem)).url[..|request.url|] == request.url
    ensures Send(request, Some(stem)).url[|request.url| + 1..] == stem
  {
    var u := Send(request, Some(stem)).url;
    assert u == request.url + ("/" + stem);
  }

  /** A stem that starts with `/` replaces the whole URL, as `os.path.join`
      discards everything before an absolute component. */
  lemma SendAbsoluteStem(request: Request, stem: string)
    requires |stem| > 0 && stem[0] == '/'
    ensures Send(request, Some(stem)).url == stem
  {
  }

  /** The body of `create`: exactly the keys `description`, `public` and
      `files`. */
  function CreateBody(desc: string, files: Json, public: bool): (j: Json)
    ensures j.Object? && j.fields.Keys == {"description", "public", "files"}
  {
    Object(map["description" := Leaf(Py.SString(desc)), "public" := Leaf(Py.SBool(public)), "files" := files])
  }

  /** Reads a `create` body back into description, files and visibility. */
  function ParseCreateBody(j: Json): Option<(string, Json, bool)> {
    if j.Object? && j.fields.Keys == {"description", "public", "files"}
       && j.fields["description"].Leaf? && j.fields["description"].scalar.SString?
       && j.fields["public"].Leaf? && j.fields["public"].scalar.SBool?
    then Some((j.fields["description"].scalar.s, j.fields["files"], j.fields["public"].scalar.b))
    else None
  }

  /** The body carries its three arguments unchanged. */
  lemma CreateBodyRoundTrip(desc: string, files: Json, public: bool)
    ensures ParseCreateBody(CreateBody(desc, files, public)) == Some((desc, files, public))
  {
  }

  /** The arguments of `create(desc, files, public=False)`. */
  datatype CreateArgs = CreateArgs(desc: string, files: Json, public: bool := false)

  /** The wrapped `create`: the template gets the body and is sent to the
      collection URL. */
  function Create(api: Api, request: Request, args: CreateArgs): (r: Result<Request>)
    ensures r.Ok? && r.value.url == request.url && r.value.verb == request.verb
    ensures r.value.params == request.params && r.value.headers == request.headers
    ensures r.value.data.Some? && ParseCreateBody(r.value.data.value) == Some((args.desc, args.files, args.public))
  {
    CreateBodyRoundTrip(args.desc, args.files, args.public);
    Ok(Send(request.(data := Some(CreateBody(args.desc, args.files, args.public))), None))
  }

  /** The wrapped `delete`: the id is joined onto the URL. */
  function Delete(api: Api, request: Request, id: string): (r: Result<Request>)
    ensures r.Ok?
    ensures r.value.verb == request.verb && r.value.headers == request.headers
    ensures r.value.params == request.params && r.value.data == request.data
    ensures request.url != [] && request.url[|request.url| - 1] != '/' && (id == [] || id[0] != '/') ==>
              r.value.url == request.url + "/" + id
  {
    Ok(Send(request, Some(id)))
  }

  /** `GistAPI.create` as the class declares it: decorated with `post`. */
  lemma CreateThroughDecorator(api: Api, desc: string, files: Json)
    ensures var s := Invoke(AuthenticatePost(Create), api, "GistAPI", CreateArgs(desc, files));
            && s.state.instance.None?
            && s.outcome.Ok?
            && s.outcome.value.verb == "POST"
            && s.outcome.value.url == ApiUrl
            && s.outcome.value.headers == DefaultHeaders
            && s.outcome.value.params == map["access_token" := api.token]
            && s.outcome.value.data == Some(CreateBody(desc, files, false))
  {
  }

  /** `GistAPI.delete` as the class declares it: a `DELETE` of the gist's
      own URL. */
  lemma DeleteThroughDecorator(api: Api, id: string)
    requires id == [] || id[0] != '/'
    ensures var s := Invoke(AuthenticateDelete(Delete), api, "GistAPI", id);
            && s.outcome.Ok?
            && s.outcome.value.verb == "DELETE"
            && s.outcome.value.url == ApiUrl + "/" + id
            && s.outcome.value.params == map["access_token" := api.token]
            && s.outcome.value.data.None?
  {
    var t := Template("DELETE", DefaultHeaders, api.token);
    SendRelativeStem(t, id);
  }

  // ---------------------------------------------------------------------
  // list
  // ---------------------------------------------------------------------

  /** One element of the decoded `list` response. */
  type GistRecord = map<string, Py.Scalar>

  /** The line `list` prints for one record, reading `description`, then
      `public`, then `id`; a missing key raises `KeyError`. A `None`
      description is rendered by `str` as "None". */
  function RecordLine(g: GistRecord): (r: Result<string>)
    ensures r.Err? <==> "description" !in g || "public" !in g || "id" !in g
    ensures "description" !in g ==> r == Err(KeyError("description"))
    ensures "description" in g && "public" !in g ==> r == Err(KeyError("public"))
    ensures "description" in g && "public" in g && "id" !in g ==> r == Err(KeyError("id"))
  {
    if "description" !in g then Err(KeyError("description"))
    else if "public" !in g then Err(KeyError("public"))
    else if "id" !in g then Err(KeyError("id"))
    else Ok(Py.Str(g["id"]) + [' ', Sign(g["public"]), ' '] + Py.Str(g["description"]))
  }

  /** The visibility marker: `+` for a truthy `public`. */
  function Sign(public: Py.Scalar): char {
    if Py.Truthy(public) then '+' else '-'
  }

  /** The lines `list` prints before it returns or raises, and the
      exception, if any. */
  datatype ListOutput = ListOutput(printed: seq<string>, raised: Option<Exception>)

  /** The loop of `list`, given each record's line or exception: lines are
      printed in order, each elided, until the first exception, which is
      raised after the earlier lines were printed. */
  function PrintUntilError(lines: seq<Result<string>>, width: Option<int>): (r: ListOutput)
    ensures |r.printed| <= |lines|
    ensures forall i :: 0 <= i < |r.printed| ==>
              lines[i].Ok? && r.printed[i] == Elide.LegacyElide(lines[i].value, width)
    ensures r.raised.None? <==> |r.printed| == |lines|
    ensures r.raised.Some? ==> lines[|r.printed|] == Err(r.raised.value)
    decreases |lines|
  {
    if lines == [] then ListOutput([], None)
    else if lines[0].Err? then ListOutput([], Some(lines[0].error))
    else
      var tail := lines[1..];
      var rest := PrintUntilError(tail, width);
      var printed := [Elide.LegacyElide(lines[0].value, width)] + rest.printed;
      assert forall i :: 1 <= i < |printed| ==> printed[i] == rest.printed[i - 1] && lines[i] == tail[i - 1];
      assert rest.raised.Some? ==> lines[|printed|] == tail[|rest.printed|];
      ListOutput(printed, rest.raised)
  }

  /** `list` over the decoded response: the records' lines are printed in
      order until the first record with a missing key. */
  function ListLines(gists: seq<GistRecord>, width: Option<int>): (r: ListOutput)
    ensures |r.printed| <= |gists|
    ensures forall i :: 0 <= i < |r.printed| ==>
              RecordLine(gists[i]).Ok? && r.printed[i] == Elide.LegacyElide(RecordLine(gists[i]).value, width)
    ensures r.raised.None? <==> |r.printed| == |gists|
    ensures r.raised.Some? ==> RecordLine(gists[|r.printed|]) == Err(r.raised.value)
  {
    var lines := seq(|gists|, i requires 0 <= i < |gists| => RecordLine(gists[i]));
    var r := PrintUntilError(lines, width);
    assert forall i :: 0 <= i < |gists| ==> lines[i] == RecordLine(gists[i]);
    r
  }

  /** Every record is printed exactly when all of them have the three keys. */
  lemma ListPrintsAllIffWellFormed(gists: seq<GistRecord>, width: Option<int>)
    ensures ListLines(gists, width).raised.None? <==> forall i :: 0 <= i < |gists| ==> RecordLine(gists[i]).Ok?
  {
    var r := ListLines(gists, width);
    if r.raised.Some? {
      assert RecordLine(gists[|r.printed|]).Err?;
    }
  }

  /** Unelided, a record's marker stands right after its id and a space, and
      it is `+` exactly when `public` is truthy. */
  lemma ListMarker(g: GistRecord)
    requires "description" in g && "public" in g && "id" in g
    ensures var line := RecordLine(g).value;
            var n := |Py.Str(g["id"])|;
            |line| >= n + 3 && line[..n] == Py.Str(g["id"]) && line[n] == ' ' && line[n + 2] == ' '
            && (line[n + 1] == '+' <==> Py.Truthy(g["public"]))
            && (line[n + 1] == '-' <==> !Py.Truthy(g["public"]))
            && line[n + 3..] == Py.Str(g["description"])
  {
    var id := Py.Str(g["id"]);
    var m := Sign(g["public"]);
    assert RecordLine(g).value == id + ([' ', m, ' '] + Py.Str(g["description"]));
  }

  /** Unlike the command-line client, which prints an empty description, this
      version prints a `None` description as "None". */
  lemma NullDescriptionPrintsNone(id: string)
    ensures RecordLine(map["id" := Py.SString(id), "public" := Py.SBool(true), "description" := Py.SNull])
            == Ok(id + " + None")
  {
    assert id + [' ', '+', ' '] + "None" == id + " + None";
  }
}

=== FILE: py.dfy ===
/** The small part of Python's built-in behaviour that the client relies on:
    `str.strip()`, prefix slicing with a possibly negative bound,
    `os.path.join`, `os.path.basename`, `str()` and truthiness of JSON
    scalars, and ASCII case folding. */
module Py {

  /** The characters for which Python's `str.isspace()` holds; `str.strip()`
      without an argument removes exactly these from both ends. */
  predicate IsSpace(c: char) {
    || c == ' ' || c == '\t' || c == '\n' || c == '\r'
    || c == '\U{0B}' || c == '\U{0C}'
    || ('\U{1C}' <= c <= '\U{1F}')
    || c == '\U{85}' || c == '\U{A0}' || c == '\U{1680}'
    || ('\U{2000}' <= c <= '\U{200A}')
    || c == '\U{2028}' || c == '\U{2029}' || c == '\U{202F}'
    || c == '\U{205F}' || c == '\U{3000}'
  }

  /** Every character of `s` is whitespace (vacuously true of ""). */
  predicate AllSpace(s: string) {
    forall k :: 0 <= k < |s| ==> IsSpace(s[k])
  }

  /** `s` neither starts nor ends with whitespace. */
  predicate Stripped(s: string) {
    |s| == 0 || (!IsSpace(s[0]) && !IsSpace(s[|s| - 1]))
  }

  /** `str.lstrip()`: `r` is the suffix of `s` left after its leading
      whitespace. */
  function LStrip(s: string): (r: string)
    ensures |r| <= |s| && r == s[|s| - |r|..]
    ensures AllSpace(s[..|s| - |r|])
    ensures |r| > 0 ==> !IsSpace(r[0])
  {
    if |s| > 0 && IsSpace(s[0]) then LStrip(s[1..]) else s
  }

  /** `str.rstrip()`: `r` is the prefix of `s` left after its trailing
      whitespace. */
  function RStrip(s: string): (r: string)
    ensures |r| <= |s| && r == s[..|r|]
    ensures AllSpace(s[|r|..])
    ensures |r| > 0 ==> !IsSpace(r[|r| - 1])
  {
    if |s| > 0 && IsSpace(s[|s| - 1]) then RStrip(s[..|s| - 1]) else s
  }

  /** `str.strip()`: the infix of `s` between its leading and trailing
      whitespace. */
  function Strip(s: string): (r: string)
    ensures Stripped(r)
    ensures |r| <= |s|
    ensures r == [] <==> AllSpace(s)
  {
    var l := LStrip(s);
    var r := RStrip(l);
    assert |r| > 0 ==> r[0] == l[0];
    assert r == [] ==> AllSpace(s) by {
      if r == [] {
        assert s[..|s|] == s;
      }
    }
    r
  }

  /** Stripping leaves an already stripped string alone, so `Strip` is
      idempotent. */
  lemma StripFixedPoint(s: string)
    requires Stripped(s)
    ensures Strip(s) == s
  {
    if |s| > 0 {
      assert LStrip(s) == s;
      assert RStrip(s) == s;
    }
  }

  /** Leading whitespace before a non-blank start is exactly what `lstrip`
      removes. */
  lemma {:induction false} LStripPadding(pre: string, t: string)
    requires AllSpace(pre)
    requires |t| > 0 && !IsSpace(t[0])
    ensures LStrip(pre + t) == t
  {
    if pre != [] {
      assert (pre + t)[1..] == pre[1..] + t;
      LStripPadding(pre[1..], t);
    }
  }

  /** Trailing whitespace after a non-blank end is exactly what `rstrip`
      removes. */
  lemma {:induction false} RStripPadding(t: string, post: string)
    requires AllSpace(post)
    requires |t| > 0 && !IsSpace(t[|t| - 1])
    ensures RStrip(t + post) == t
  {
    if post != [] {
      assert (t + post)[..|t + post| - 1] == t + post[..|post| - 1];
      RStripPadding(t, post[..|post| - 1]);
    }
  }

  /** `strip` removes exactly the whitespace padding around a non-empty
      stripped core. */
  lemma StripPadding(pre: string, core: string, post: string)
    requires AllSpace(pre) && AllSpace(post)
    requires core != [] && Stripped(core)
    ensures Strip(pre + core + post) == core
  {
    assert pre + core + post == pre + (core + post);
    LStripPadding(pre, core + post);
    RStripPadding(core, post);
  }

  /** Python's `s[:k]` for an integer `k`: a negative `k` counts from the
      end, and both bounds are clamped to the string. */
  function Prefix(s: string, k: int): (r: string)
    ensures r <= s
    ensures 0 <= k <= |s| ==> |r| == k
    ensures k < 0 ==> |r| == (if |s| + k >= 0 then |s| + k else 0)
    ensures k > |s| ==> r == s
  {
    if k >= 0 then (if k <= |s| then s[..k] else s)
    else if |s| + k >= 0 then s[..|s| + k]
    else []
  }

  /** `os.path.join(a, b)` on POSIX: an absolute `b` replaces `a`; otherwise
      a separator is inserted unless `a` is empty or already ends with one. */
  function PathJoin(a: string, b: string): string {
    if |b| > 0 && b[0] == '/' then b
    else if a == [] || a[|a| - 1] == '/' then a + b
    else a + "/" + b
  }

  /** The joined path ends with `b`; an absolute `b` is the whole result,
      and otherwise the result starts with `a` and a non-empty `a` is
      separated from `b` by a `/`. */
  lemma PathJoinJoins(a: string, b: string)
    ensures var r := PathJoin(a, b);
            && |r| >= |b| && r[|r| - |b|..] == b
            && (|b| > 0 && b[0] == '/' ==> r == b)
            && (!(|b| > 0 && b[0] == '/') ==> |r| >= |a| && r[..|a|] == a)
            && (!(|b| > 0 && b[0] == '/') && a != [] ==> |r| > |b| && r[|r| - |b| - 1] == '/')
  {
  }

  /** `os.path.basename(p)` on POSIX: the text after the last `/`. */
  function Basename(p: string): (r: string)
    ensures '/' !in r
    ensures |r| <= |p|
  {
    if p == [] then []
    else if p[|p| - 1] == '/' then []
    else Basename(p[..|p| - 1]) + [p[|p| - 1]]
  }

  /** The base name is the end of the path, and it is either the whole path
      or it follows a `/`. */
  lemma {:induction false} BasenameIsLastComponent(p: string)
    ensures var r := Basename(p);
            r == p[|p| - |r|..] && (|r| < |p| ==> p[|p| - |r| - 1] == '/')
  {
    if p != [] && p[|p| - 1] != '/' {
      var q := p[..|p| - 1];
      BasenameIsLastComponent(q);
      var b := Basename(q);
      assert p[|p| - |b| - 1..] == q[|q| - |b|..] + [p[|p| - 1]];
    }
  }

  /** A JSON scalar as Python sees it after decoding: `None`, a bool, an
      integer or a string. */
  datatype Scalar = SNull | SBool(b: bool) | SInt(i: int) | SString(s: string)

  /** The decimal digits of a natural number. */
  function Digits(n: nat): (r: string)
    ensures |r| > 0
    ensures forall k :: 0 <= k < |r| ==> '0' <= r[k] <= '9'
  {
    var d := [(n % 10) as char + '0'];
    if n < 10 then d else Digits(n / 10) + d
  }

  /** `str(v)`, which is what `'{}'.format(v)` renders. */
  function Str(v: Scalar): string {
    match v
    case SNull => "None"
    case SBool(b) => if b then "True" else "False"
    case SInt(i) => if i < 0 then "-" + Digits(-i) else Digits(i)
    case SString(s) => s
  }

  /** Python truthiness of a decoded scalar. */
  predicate Truthy(v: Scalar) {
    match v
    case SNull => false
    case SBool(b) => b
    case SInt(i) => i != 0
    case SString(s) => s != ""
  }

  /** `str.lower()` restricted to ASCII letters; every other character is
      kept as it is. */
  function AsciiLower(s: string): (r: string)
    ensures |r| == |s|
    ensures forall k :: 0 <= k < |s| ==> r[k] == if 'A' <= s[k] <= 'Z' then (s[k] as int + 32) as char else s[k]
    ensures forall k :: 0 <= k < |s| ==> ('A' <= s[k] <= 'Z' <==> r[k] != s[k])
  {
    if s == [] then []
    else
      var c := s[0];
      [if 'A' <= c <= 'Z' then (c as int + 32) as char else c] + AsciiLower(s[1..])
  }
}

=== FILE: types.dfy ===
/** Option, the Python exceptions the client raises or lets escape, and a
    Result type pairing a value with one of those exceptions. */
module Types {

  /** Python's `None` versus a present value. */
  datatype Option<+T> = None | Some(value: T)

  /** The exceptions that the modelled code raises or lets propagate, one
      constructor per Python exception class that matters to a caller. */
  datatype Exception =
    | UserError(msg: string)
    | GistError(msg: string)
    | GistMissingTokenError(msg: string)
    | GistEmptyTokenError(msg: string)
    | NoSectionError(section: string)
    | NoOptionError(option: string, section: string)
    | FileNotFoundError(path: string)
    | ValueError(msg: string)
    | IndexError(msg: string)
    | KeyError(key: string)
    | AttributeError(msg: string)
  {
    /** True of `GistError` and of its two subclasses. */
    predicate IsGistError() {
      GistError? || GistMissingTokenError? || GistEmptyTokenError?
    }
  }

  /** A value, or the exception raised instead of producing it. */
  datatype Result<+T> = Ok(value: T) | Err(error: Exception) {
    predicate IsFailure() {
      Err?
    }

    function PropagateFailure<U>(): Result<U>
      requires Err?
    {
      Err(error)
    }

    function Extract(): T
      requires Ok?
    {
      value
    }
  }
}
